=== FILE: README.md ===
# Lecture archive and local question answering, in Dafny

This project models the logic of a small static web site that publishes
transcribed Farsi lectures. The site has three parts with real logic:

- **The lecture store** (`data-store.js`). It normalises lecture records and
  reads them back from storage, falling back to a seed list. It merges
  missing seed lectures into the stored list, deduplicating them by id or by
  the `collection::topic::sessionNumber` key. It sorts the list, and it adds,
  finds and removes lectures.
- **The local question-answering pipeline** (`chat.js`). It normalises and
  tokenises text, splits lecture texts into paragraphs, and builds a chunk
  index. It scores chunks by token overlap, picks the best four, and
  composes an extractive answer with references. It also escapes text for
  HTML.
- **The listing page** (`app.js`). It offers filters by collection, topic
  and free-text search over a paginated list of 12 lectures per page. The
  page is modelled as a state `{collection, topic, search, page}` that the
  event handlers change and each render repairs.

Everything is modelled with immutable datatypes and pure functions. One
module follows each concern:

| module | file | models |
|---|---|---|
| `Wrappers` | wrappers.dfy | `Option`, standing in for `null`/`undefined` |
| `Seqs` | seqs.dfy | `map`, `filter`, `split`, `join` and `split(/x+/)`; also subsequences |
| `Text` | text.dfy | `\s`, `trim`, `replace(/\s+/g, " ")`, `includes`, decimal rendering |
| `Normalizer` | normalizer.dfy | `normalizeText`, `STOP_WORDS`, `tokenize` |
| `Chunker` | chunker.dfy | `splitParagraphs`, `buildChunks` |
| `Retriever` | retriever.dfy | `scoreChunk`, `pickTopChunks` |
| `Answer` | answer.dfy | `summarizeText`, `makeAnswer`, the empty-question guard |
| `Html` | html.dfy | `escapeHtml` |
| `LectureStore` | lecture_store.dfy | all of `data-store.js` except storage access |
| `Listing` | listing.dfy | filters, topic reset, page arithmetic and handlers of `app.js` |

Several things the JavaScript takes from its engine or environment are
parameters of the model:

- The Unicode classes `\p{L}` and `\p{N}` and `toLowerCase` are
  `Normalizer.CharClasses`, with lower-casing taken one character at a
  time. `Normalizer.Valid` states what the Unicode tables guarantee for
  characters whose lower-case form is a single character, chosen without
  looking at the neighbours. The real tables break this in two places:
  U+0130 (İ) lower-cases to "i" followed by the combining dot U+0307, and
  a capital sigma at the end of a word lower-cases to the final sigma. The
  lemmas that rely on `Valid` are named under "Left out".
- String `toLowerCase` on the listing page is a `lower` function.
- `localeCompare(…, "fa")` is a `before` relation, assumed to be a strict
  total order.
- `Date.now()` is a number `now`.
- The outcome of `JSON.parse` is an argument.

The global `ALL_CHUNKS` is not a global: the index is built by
`Chunker.BuildChunks` and passed to the retriever.

Two facts about the code shape the model:

- `chat.js` answers every question locally. Its submit handler has no
  remote mode, no settings and no conversation history, so only the local
  answer is modelled.
- Cuts use `String.prototype.slice`, which counts UTF-16 code units, so a
  cut can split a character outside the Basic Multilingual Plane. Here
  strings are sequences of characters, so the model and the code agree
  for every character of the Basic Multilingual Plane.

## Model

| member | source | states |
|---|---|---|
| Seqs.Filter | chat.js:26 | `Array.prototype.filter`: every kept element satisfies the predicate, comes from the input, and keeps its relative order (a subsequence) |
| Seqs.FilterMultiset | chat.js:26 | filtering keeps each element satisfying the predicate exactly as many times as it occurs and drops every other element |
| Seqs.Split | chat.js:25 | `split(" ")`: at least one piece, no piece holds the separator, every character of a piece comes from the input |
| Seqs.JoinSplit | chat.js:25 | joining the pieces of a split with the separator gives back the input |
| Seqs.SplitJoin | chat.js:25 | splitting a join of separator-free pieces gives back the pieces |
| Seqs.SplitRunsIsSplitOfSquashed | chat.js:31 | `split(/\n+/)` equals splitting on single newlines after squashing every run of newlines into one |
| Text.Trim | chat.js:19 | `trim()`: no whitespace at either end, no longer than the input, only characters of the input, and empty exactly when the input is all whitespace |
| Text.CollapseWhitespace | chat.js:18 | `replace(/\s+/g, " ")`: the only whitespace left is single plain spaces; the result starts with a space exactly when the input starts with whitespace; every other character comes from the input; `Text.CollapseEnds` and `Text.CollapseBetween` below pin the ends and each interior run |
| Text.CollapseEnds | chat.js:18 | the result is empty only for the empty input, and ends with a space exactly when the input ends with whitespace |
| Text.CollapseAppend | chat.js:18 | cutting the input right after a visible character cuts the result at the same place: collapsing works run by run |
| Text.CollapseBetween | chat.js:18 | a run of whitespace of any length between two visible characters becomes exactly one space, so the words on either side stay apart |
| Text.CollapseKeepsVisible | chat.js:18 | collapsing whitespace keeps every non-whitespace character, in order |
| Text.CollapseOfCollapsed | chat.js:18 | an already-collapsed string is left unchanged |
| Text.TrimKeepsCollapsed | chat.js:18-19 | trimming a collapsed string keeps it collapsed |
| Text.Clean | chat.js:95 | collapse then trim: the result is collapsed, trimmed, no longer than the input, and has the same non-whitespace characters in order |
| Text.CleanBetween | chat.js:95 | cleaning a text whose two parts meet at a run of whitespace between visible characters gives the two cleaned parts joined by one space |
| Text.CleanIdempotent | chat.js:95 | cleaning twice is cleaning once |
| Text.NatToStringRoundTrip | chat.js:44 | the decimal rendering of a number in a template literal reads back to that number |
| Text.NatToStringInjective | chat.js:44 | different numbers render differently |
| Normalizer.CleanGlyphs | chat.js:13-17 | after the four character passes, every character is whitespace or a letter or digit other than the Arabic yeh and kaf |
| Normalizer.NormalizeText | chat.js:11-21 | `null` and `undefined` give the empty string, and with lower-casing one character at a time the output is never longer than the input |
| Normalizer.NormalizeTextShape | chat.js:11-21 | under `Valid` tables the output is trimmed and has no two spaces in a row; it holds only plain spaces and lower-case letters and digits other than the Arabic yeh and kaf |
| Normalizer.NormalFormIsClean | chat.js:13-16 | a normalised text holds no Arabic yeh (U+064A), Arabic kaf (U+0643) or diacritic U+064B–U+065F, and no whitespace but the space |
| Normalizer.NormalizeFixesNormalForm | chat.js:11-21 | a string already in normal form is its own normalisation |
| Normalizer.NormalizeIdempotent | chat.js:11-21 | under `Valid` tables normalising twice is normalising once |
| Normalizer.WordsJoin | chat.js:24-25 | the space-separated words of the normalised text join back into it |
| Normalizer.Tokenize | chat.js:5-27 | every token has at least two characters, is not a stop word and holds no space, and the tokens are a subsequence of the words |
| Normalizer.TokenizeCounts | chat.js:23-27 | each word longer than one character that is not a stop word is a token exactly as often as it occurs, and nothing else is a token |
| Normalizer.TokensAreWordChars | chat.js:17-27 | under valid Unicode tables every character of every token is a letter or a digit |
| Normalizer.TokenizeOfNormalized | chat.js:23-27 | under `Valid` tables tokenising normalised text gives the same tokens as tokenising the original |
| Chunker.SplitParagraphs | chat.js:29-34 | every paragraph is trimmed, free of newlines and longer than 50 characters; a text of at most 50 characters has no paragraph |
| Chunker.SplitParagraphsPieces | chat.js:29-34 | the paragraphs are the trimmed pieces between runs of newlines that are longer than 50 characters: in text order, each as often as it occurs, and nothing else |
| Chunker.LectureChunkAt | chat.js:40-51 | the k-th chunk of a lecture holds its k-th paragraph, the lecture's id, title and session, the paragraph's tokens, and the number k + 1 |
| Chunker.BuildChunks | chat.js:36-55 | the index has one chunk per paragraph, summed over the lectures |
| Chunker.BuildChunksWellFormed | chat.js:36-55 | every chunk holds a paragraph of one of the lectures with that lecture's id, title and session number and `tokens == tokenize(paragraph)` |
| Chunker.BuildChunksAppend | chat.js:40 | lectures are visited in order: the index of two lists is the first's index followed by the second's |
| Chunker.ChunkAt | chat.js:40-51 | paragraph k of lecture i sits right after the chunks of the lectures before i, numbered k + 1 |
| Chunker.ChunkIdAt | chat.js:44 | chunk ids follow `<lectureId>-p-<k>` with k counted from 1 within each lecture |
| Chunker.EmptyTextHasNoChunks | chat.js:30-33 | a lecture with empty text contributes no chunk |
| Retriever.Overlap | chat.js:64-71 | the overlap counts question tokens with repetition; it is at most the question length, 0 exactly when no question token occurs in the chunk, and the full length exactly when all do |
| Retriever.OverlapUsesTokenSet | chat.js:64 | only the set of chunk tokens matters: order and repeats in the chunk do not change the overlap |
| Retriever.ScoreChunk | chat.js:59-77 | the score is never negative; it is 0 when either token list is empty and positive exactly when some question token occurs in the chunk |
| Retriever.FullCoverageScore | chat.js:73-76 | a question whose tokens all occur in the chunk scores at least 0.85 |
| Retriever.OverlapIsShared | chat.js:64-71 | for a question without repeated tokens the overlap is the number of distinct shared tokens |
| Retriever.ScoreAtMostOne | chat.js:73-76 | a question without repeated tokens scores at most 1 |
| Retriever.RankRanked | chat.js:88 | ranking distinct positions orders them by descending score, equal scores in index order, as a stable sort does |
| Retriever.Rank | chat.js:88 | ranking is a permutation of the positions |
| Retriever.TopPositionsAreBest | chat.js:82-89 | a positive chunk that is left out is preceded by every chosen one, and the limit is reached |
| Retriever.FewPositivesAllChosen | chat.js:87-89 | when at most `limit` chunks score above zero, all of them are chosen |
| Retriever.PickTopChunks | chat.js:79-92 | at most `limit` hits, each a chunk of the index with its own positive score, in non-increasing score order |
| Retriever.PickTopChunksAreBest | chat.js:82-89 | an unpicked chunk with a positive score scores no higher than any picked one, and `limit` chunks were picked |
| Retriever.PickTopChunksTakesAllFew | chat.js:87-89 | with at most `limit` positive chunks, every positive chunk is picked with its score |
| Retriever.PickTopChunksEmpty | chat.js:87-89 | for a positive limit nothing is picked exactly when every chunk scores 0 |
| Retriever.NothingToPick | chat.js:60-62 | a question without tokens, or an empty index, picks nothing |
| Retriever.Ask | chat.js:79-92 | the default-limit query returns at most four hits, each a chunk of the index with a positive score |
| Answer.Summarize | chat.js:94-98 | the cleaned text when it fits, otherwise its first `maxLen` characters then `...`; never longer than `maxLen + 3`; always collapsed and trimmed |
| Answer.SummarizeStable | chat.js:94-98 | summarising a summary with room for the marker changes nothing |
| Answer.SummarizeKeepsVisible | chat.js:95-96 | a summary that is not cut keeps every non-whitespace character of the text, in order |
| Answer.Compose | chat.js:103-128 | no hits give the apology and no references; one hit gives its paragraph summarised to 420 characters; two or more give that, then the header line after a blank line, then one `- ` line per paragraph of the hits ranked 2 and 3, summarised to 180 characters; one reference per hit, in rank order, each with its chunk's lecture id, title and session and an excerpt of at most 173 characters |
| Answer.Support | chat.js:111 | the supporting paragraphs are those of the hits ranked 2 and 3, when present |
| Answer.ComposeLines | chat.js:113-119 | the answer has a line break only when there is support: the header's three plus one per bullet, with one or two bullets |
| Answer.ComposeExcerpts | chat.js:121-126 | each reference quotes its chunk's paragraph summarised to 170 characters |
| Answer.MakeAnswer | chat.js:100-129 | an answer carries at most four references |
| Answer.MakeAnswerApologizes | chat.js:100-108 | the apology without references comes back exactly when no chunk shares a token with the question |
| Answer.SubmittedQuestion | chat.js:164-165 | the submit handler answers nothing exactly for a blank input, and otherwise the non-empty trimmed input |
| Html.EscapeHtml | chat.js:139-146 | the output holds no `<`, `>`, `"` or `'` |
| Html.EscapeHtmlIsEscapeEach | chat.js:139-146 | because `&` is replaced first, the five passes escape every character exactly once, as a single pass would |
| Html.EscapeHtmlIsSafe | chat.js:139-146 | every `&` of the output begins one of the five entities |
| Html.UnescapeEscapeHtml | chat.js:139-146 | decoding the five entities gives the text back, so escaping loses nothing |
| LectureStore.OrDefault | data-store.js:24-33 | `field \|\| fallback`: a present, non-empty string is kept, anything else gives the fallback |
| LectureStore.SessionOr | data-store.js:30 | `Number(x) \|\| index + 1`: a finite non-zero number is kept, NaN and zero give `index + 1`; never zero |
| LectureStore.NormalizeLecture | data-store.js:22-35 | every truthy field is kept; falsy ones get `بدون عنوان`, `سایر`, `عمومی`, `30 دقیقه`, the generated id, or the empty string; the session number as above |
| LectureStore.NormalizeLectureFixesNormalized | data-store.js:22-35 | a normalised lecture is left unchanged, whatever its position and the clock |
| LectureStore.NormalizeLectureIdempotent | data-store.js:22-35 | normalising twice is normalising once |
| LectureStore.NormalizeAll | data-store.js:37-51 | each item is normalised with its own position |
| LectureStore.SeedLectures | data-store.js:3-20 | the installed seed list when it is a non-empty array, otherwise the built-in fallback lecture; never empty |
| LectureStore.ParseLectures | data-store.js:37-51 | missing or empty storage, a parse error, a non-array, or an array holding `null` gives the normalised seeds; otherwise each parsed element is normalised at its position |
| LectureStore.AddMissing | data-store.js:62-69 | the added seeds keep seed order; none reuses an id or key of the stored lectures or of another added seed; every seed left out clashes by id or by key |
| LectureStore.AddMissingSnoc | data-store.js:62-69 | first come, first served: one more seed is added exactly when its id and key are free among the stored lectures and the seeds added before it |
| LectureStore.MergeMissingSeed | data-store.js:53-82 | the merged list is a permutation of the stored lectures plus the added seeds, so it keeps every stored lecture |
| LectureStore.MergeMissingSeedSorted | data-store.js:71-81 | the merged list is sorted by collection, then topic, then ascending session number |
| LectureStore.InsertSorted | data-store.js:71-79 | inserting into a sorted list keeps it sorted |
| LectureStore.SortLectures | data-store.js:71-79 | sorting is a permutation |
| LectureStore.SortLecturesSorted | data-store.js:71-79 | the sorted list never has a later lecture that sorts before an earlier one |
| LectureStore.AddLecture | data-store.js:98-111 | the list grows by one with the normalised new lecture in front; a caller's truthy id is kept, a missing one becomes `lec-<now>` |
| LectureStore.GetLectureById | data-store.js:113-116 | the first lecture with that id, or nothing exactly when no lecture has it |
| LectureStore.RemoveLecture | data-store.js:118-123 | no lecture with that id is left; every other lecture is kept as often as before, in its original order |
| LectureStore.AddedIsFound | data-store.js:98-116 | in the list that `addLecture` writes back, a lookup of the new lecture's id finds that lecture |
| LectureStore.RemoveUndoesAdd | data-store.js:98-123 | removing the id of a lecture just added gives what removing it before the addition gives |
| LectureStore.RemovedIsNotFound | data-store.js:113-123 | in the list that `removeLecture` returns, the id is no longer found |
| LectureStore.RemovedSeedReturns | data-store.js:53-123 | after the first seed lecture's id is removed, the next read merges the seeds in again and a lookup of that id finds the seed lecture once more |
| Listing.Distinct | app.js:21 | the distinct non-empty values not seen before: each comes from the input, and every such input value is kept |
| Listing.UniqueValues | app.js:20-22 | `getUniqueValues`: exactly the truthy values of the key over the items |
| Listing.UniqueValuesOrder | app.js:20-22 | no value repeats, and values come in order of first occurrence |
| Listing.PreviewText | app.js:40-45 | the text when it fits; otherwise its first `maxLength` characters then `...` |
| Listing.FilterLectures | app.js:47-60 | the listed lectures are a subsequence of the list |
| Listing.FilterLecturesMembers | app.js:47-60 | a lecture is listed exactly when it is in the list and matches collection, topic and the trimmed, lower-cased search |
| Listing.FilterAllKeepsEverything | app.js:47-60 | with every collection, every topic and a blank search the whole list is shown |
| Listing.RenderFilters | app.js:71-77 | the topic stays when it is offered for the collection and is reset to `all` when it is not; nothing else changes |
| Listing.RenderFiltersKeepsTopic | app.js:62-77 | a selected topic survives exactly when some lecture of the selected collection has it |
| Listing.TotalPages | app.js:86 | `max(1, ceil(n / 12))`: at least one page, enough pages for n lectures, and no empty page beyond the first |
| Listing.JsSlice | app.js:93 | `slice(start, end)` on non-negative bounds is the clamped sub-sequence |
| Listing.Render | app.js:81-90 | a render repairs the topic and clamps the page down to the number of pages of the filtered list |
| Listing.RenderKeepsPageInRange | app.js:86-90 | a render from a page of at least 1 leaves `1 <= page <= totalPages` |
| Listing.ShowsPage | app.js:92-135 | for an existing page, the count and page total are shown; the items are `filtered[(page-1)*12 .. page*12)`, at most 12; prev and next are disabled exactly on the first and last page |
| Listing.Handle | app.js:138-166 | a filter change sets its field, keeps the other two and goes back to page 1; prev and next move exactly one page down or up and keep the filters |
| Listing.Step | app.js:156-161 | the previous-page button does nothing on page 1 |
| Listing.StepKeepsPageInRange | app.js:138-166 | every handler keeps the page among the existing pages |
| Listing.RunKeepsPageInRange | app.js:13-168 | from the initial render on, whatever the user does, the page shown exists |
| Listing.NextOnLastPageStays | app.js:163-166 | on the last page, the next-page handler's render clamps the page back |
| Listing.PagesCoverFiltered | app.js:86-93 | reading pages 1 to totalPages in turn gives back the filtered list |

## Left out

- DOM work is not modelled: message boxes, reference markup, select filling and card cloning. The modelled functions return what would be shown.
- `localStorage` reads and writes are not modelled. The stored list is an argument and the list to write back is a result. `getLectures` merges the parsed list, which `LectureStore.NormalizeLectureFixesNormalized` shows the merge normalises again without change.
- `getLectureById` reads through `getLectures`, so its lookup runs on the stored list merged with the seeds and sorted again, not on the list `addLecture` or `removeLecture` just wrote. The lookup lemmas are stated on the written list; the re-merge is stated separately by `LectureStore.RemovedSeedReturns`.
- LectureStore.AddedIsFound: holds for the list `addLecture` writes back. The store's next lookup re-merges and re-sorts that list, so when the new lecture's id is already in use by an older lecture that sorts before it, `find` returns the older one.
- LectureStore.RemovedIsNotFound: holds for the list `removeLecture` returns. The store's next read merges the seeds in again, so a removed seed lecture is found once more (`LectureStore.RemovedSeedReturns`).
- LectureStore.RawLecture: every stored field other than `sessionNumber` is a string or missing, and `sessionNumber` is kept as what `Number(…)` makes of it. A truthy value of another type, such as `"id": 7` in hand-edited storage, is copied as is by `lecture.id || …` and is not modelled.
- `admin.js`, `admin-auth.js` and `lecture.js` are not part of this model. They are form handling, a password check and page rendering.
- `JSON.parse` is not modelled. Its outcome is an argument: a syntax error, a non-array, or an array of elements that are `null`/`undefined`, primitives or objects.
- `Date.now()` is an argument. `addLecture` reads the clock twice in the source (the default id and normalisation); the model uses one value, which only changes an id that the source then overrides anyway. `LectureStore.NormalizeAll` likewise uses one `now` for the whole list, while `map(normalizeLecture)` reads the clock once per element; the generated ids `lec-<now>-<index>` stay distinct either way because they carry the index.
- The Unicode tables behind `\p{L}`, `\p{N}` and `toLowerCase` are parameters. `toLowerCase` is modelled per character in the normaliser, so one-to-many lower-casing (U+0130) and the context-dependent final sigma are not modelled.
- Normalizer.NormalizeText: "never longer than the input" holds for per-character lower-casing only. In the engine `normalizeText("İ")` is "i" followed by U+0307, two characters for one.
- Normalizer.NormalizeTextShape: assumes `Valid`, which U+0130 breaks. In the engine `normalizeText("İ")` holds U+0307, a combining mark that is neither a letter nor a digit.
- Normalizer.NormalizeIdempotent: assumes `Valid`. The engine's `normalizeText` is not idempotent: `normalizeText("İ")` is "i" followed by U+0307, and normalising that again removes U+0307 (it matches neither `\p{L}` nor `\p{N}`) and gives "i".
- Normalizer.TokensAreWordChars: assumes `Valid`. In the engine the token of "İx" is "i", U+0307, "x", and U+0307 is not a letter or a digit.
- Normalizer.TokenizeOfNormalized: assumes `Valid`. In the engine `tokenize("İx")` is the three-character token "i", U+0307, "x", while `tokenize(normalizeText("İx"))` is empty: normalising again turns U+0307 into a space, which leaves the one-letter words "i" and "x".
- Strings are sequences of characters, while JavaScript counts UTF-16 code units. Lengths and cuts differ only for characters outside the Basic Multilingual Plane.
- Scores are exact reals rather than doubles. The order they induce is the intended one, but floating-point rounding is not modelled.
- `LectureStore.KeyOf`: the merge key is a triple. The source builds the string `collection::topic::sessionNumber`, so two different triples whose parts contain `::` can collide; that collision is not modelled.
- `LectureStore.SortLecturesSorted` states sortedness and `LectureStore.SortLectures` permutation, but not stability of the sort among lectures with equal keys.
- `LectureStore.MergeMissingSeedSorted` assumes `localeCompare(…, "fa")` is a strict total order, which the collation of the engine is not shown to be.
- `Retriever.PickTopChunks` takes `limit` as a natural number. A negative limit, which `slice(0, limit)` would count from the end, is never passed.
- `Listing.Run` renders with one fixed lecture list. In the source each render reads the store again, which is the same list unless the admin page changed it in between.
- The `lower` function of the listing page is any function. `Listing.FilterAllKeepsEverything` needs it to map the empty string to itself.
- The `answerHtml` markup, which turns line breaks into `<br />`, is not modelled. Its escaping is `Html.EscapeHtml`.
- `Chunker.BuildChunks` takes the tokenizer as a parameter so that the index can be reasoned about independently. The pipeline instantiates it with `Normalizer.Tokenize` (`Retriever.Tokenizer`).
- `LectureStore.AddLecture`: absent, `undefined` and `null` fields are all `None`. In the source an explicit `id: undefined` or `id: null` in the caller's object overrides the default `lec-<now>` through the spread, and normalisation then generates `lec-<now>-<length>`; the model gives `lec-<now>` for every `None` id.
- `Listing.Show`: the view of a render is a separate function from the state it leaves, which in the source is one procedure writing both the state and the DOM.
- Infinite values of `Number(x)` for a session number are not modelled. `LectureStore.JsNumber` is NaN or a finite real.

=== FILE: answer.dfy ===
/** The extractive answer of the chat page (chat.js, lines 94-129 and the
    empty-question guard of lines 164-169): the best paragraph, up to two
    supporting paragraphs, and one reference per picked chunk. */
module Answer {
  import opened Wrappers
  import opened Seqs
  import opened Text
  import Normalizer
  import Chunker
  import Retriever

  /** summarizeText: collapse and trim the whitespace, then cut at `maxLen`
      characters and mark the cut with `...`. */
  function Summarize(text: string, maxLen: nat): (r: string)
    ensures |r| <= maxLen + 3
    ensures Collapsed(r) && Trimmed(r)
    ensures |Clean(text)| <= maxLen ==> r == Clean(text)
    ensures |Clean(text)| > maxLen ==> |r| == maxLen + 3 && Clean(text)[..maxLen] <= r && r[maxLen..] == "..."
  {
    var cleaned := Clean(text);
    if |cleaned| <= maxLen then cleaned
    else
      CutIsClean(cleaned, maxLen);
      cleaned[..maxLen] + "..."
  }

  /** Cutting a clean text and appending the marker keeps it clean. */
  lemma CutIsClean(c: string, n: nat)
    requires Collapsed(c) && Trimmed(c) && n < |c|
    ensures Collapsed(c[..n] + "...") && Trimmed(c[..n] + "...")
    ensures c[..n] <= c[..n] + "..." && (c[..n] + "...")[n..] == "..."
  {
    var r := c[..n] + "...";
    assert forall i :: 0 <= i < n ==> r[i] == c[i];
    assert forall i :: n <= i < |r| ==> r[i] == '.';
    assert r[n..] == "...";
  }

  /** A summary is clean already, so summarising it again with room for the
      marker changes nothing. */
  lemma SummarizeStable(text: string, maxLen: nat)
    ensures Summarize(Summarize(text, maxLen), maxLen + 3) == Summarize(text, maxLen)
  {
    var r := Summarize(text, maxLen);
    CleanOfClean(r);
  }

  /** A summary that is not cut keeps every non-space character of the text, in order. */
  lemma SummarizeKeepsVisible(text: string, maxLen: nat)
    requires |Clean(text)| <= maxLen
    ensures Visible(Summarize(text, maxLen)) == Visible(text)
  {
  }

  /** How much of the best paragraph the answer quotes. */
  const BestLength: nat := 420
  /** How much of each supporting paragraph the answer quotes. */
  const SupportLength: nat := 180
  /** How much of its paragraph a reference quotes. */
  const ExcerptLength: nat := 170

  const Apology: string := "در متن سخنرانی های موجود، پاسخ دقیقی برای این سوال پیدا نشد. لطفا سوال را جزئی تر بپرسید."
  const SupportTitle: string := "نکات تکمیلی از جلسات مرتبط:"
  /** The line that introduces the supporting paragraphs, after a blank line. */
  const SupportHeader: string := "\n\n" + SupportTitle + "\n"

  /** A citation of one picked chunk. */
  datatype Ref = Ref(lectureId: string, lectureTitle: string, sessionNumber: real, excerpt: string)

  datatype Reply = Reply(answer: string, refs: seq<Ref>)

  function RefOf(h: Retriever.Hit): Ref {
    Ref(h.chunk.lectureId, h.chunk.lectureTitle, h.chunk.lectureSession, Summarize(h.chunk.paragraph, ExcerptLength))
  }

  /** One `- <summary>\n` line per supporting paragraph. */
  function Bullets(ps: seq<string>): string
    decreases |ps|
  {
    if ps == [] then [] else Bullet(ps[0]) + Bullets(ps[1..])
  }

  /** The number of times `c` occurs in `s`. */
  function Count(s: string, c: char): nat
    decreases |s|
  {
    if s == [] then 0 else (if s[0] == c then 1 else 0) + Count(s[1..], c)
  }

  lemma {:induction false} CountAppend(a: string, b: string, c: char)
    ensures Count(a + b, c) == Count(a, c) + Count(b, c)
    decreases |a|
  {
    if a == [] {
      assert a + b == b;
    } else {
      assert (a + b)[0] == a[0];
      assert (a + b)[1..] == a[1..] + b;
      CountAppend(a[1..], b, c);
    }
  }

  lemma {:induction false} CountAbsent(s: string, c: char)
    requires c !in s
    ensures Count(s, c) == 0
    decreases |s|
  {
    if s != [] {
      CountAbsent(s[1..], c);
    }
  }

  lemma HeaderLines()
    ensures Count(SupportHeader, '\n') == 3
  {
    assert '\n' !in SupportTitle;
    CountAbsent(SupportTitle, '\n');
    CountAppend("\n\n", SupportTitle, '\n');
    CountAppend("\n\n" + SupportTitle, "\n", '\n');
  }

  lemma {:induction false} CountCollapsedNewlines(s: string)
    requires Collapsed(s)
    ensures Count(s, '\n') == 0
    decreases |s|
  {
    if s != [] {
      assert IsSpace('\n');
      assert s[0] != '\n';
      assert Collapsed(s[1..]);
      CountCollapsedNewlines(s[1..]);
    }
  }

  /** The bullets are exactly one line each: a summary has no line break of its own. */
  lemma {:induction false} BulletsLines(ps: seq<string>)
    ensures Count(Bullets(ps), '\n') == |ps|
    decreases |ps|
  {
    if ps != [] {
      var line := Summarize(ps[0], SupportLength);
      CountCollapsedNewlines(line);
      CountAppend("- ", line, '\n');
      CountAppend("- " + line, "\n", '\n');
      CountAppend("- " + line + "\n", Bullets(ps[1..]), '\n');
      BulletsLines(ps[1..]);
    }
  }

  /** The paragraphs of the hits ranked 2 and 3 (`top.slice(1, 3)`). */
  function Support(top: seq<Retriever.Hit>): (ps: seq<string>)
    requires top != []
    ensures |ps| <= 2 && |ps| == if |top| < 3 then |top| - 1 else 2
    ensures forall k :: 0 <= k < |ps| ==> ps[k] == top[k + 1].chunk.paragraph
  {
    var end := if |top| < 3 then |top| else 3;
    seq(end - 1, k requires 0 <= k < end - 1 => top[k + 1].chunk.paragraph)
  }

  /** The support block lists the paragraphs of hits 2 and 3, one bullet each. */
  lemma BulletsOfSupport(top: seq<Retriever.Hit>)
    requires top != []
    ensures |top| == 1 ==> Support(top) == []
    ensures |top| == 2 ==> Bullets(Support(top)) == Bullet(top[1].chunk.paragraph)
    ensures |top| >= 3 ==> Bullets(Support(top)) == Bullet(top[1].chunk.paragraph) + Bullet(top[2].chunk.paragraph)
  {
    var ps := Support(top);
    if |top| == 2 {
      assert ps == [top[1].chunk.paragraph];
      BulletsOne(ps[0]);
    } else if |top| >= 3 {
      assert ps == [top[1].chunk.paragraph, top[2].chunk.paragraph];
      BulletsTwo(ps[0], ps[1]);
    }
  }

  /** The answer text after the best summary `best`. */
  lemma SupportBlock(top: seq<Retriever.Hit>, best: string)
    requires top != []
    ensures |top| == 1 ==> Support(top) == []
    ensures |top| == 2 ==>
      best + (SupportHeader + Bullets(Support(top))) == best + SupportHeader + Bullet(top[1].chunk.paragraph)
    ensures |top| >= 3 ==>
      best + (SupportHeader + Bullets(Support(top)))
      == best + SupportHeader + Bullet(top[1].chunk.paragraph) + Bullet(top[2].chunk.paragraph)
  {
    BulletsOfSupport(top);
    if |top| == 2 {
      ConcatThree(best, SupportHeader, Bullet(top[1].chunk.paragraph));
    } else if |top| >= 3 {
      ConcatFour(best, SupportHeader, Bullet(top[1].chunk.paragraph), Bullet(top[2].chunk.paragraph));
    }
  }

  lemma ConcatFour(a: string, b: string, c: string, d: string)
    ensures a + (b + (c + d)) == a + b + c + d
  {
  }

  /** The line of one supporting paragraph. */
  function Bullet(p: string): string {
    "- " + Summarize(p, SupportLength) + "\n"
  }

  lemma BulletsOne(a: string)
    ensures Bullets([a]) == Bullet(a)
  {
    assert [a][1..] == [];
  }

  lemma BulletsTwo(a: string, b: string)
    ensures Bullets([a, b]) == Bullet(a) + Bullet(b)
  {
    assert [a, b][1..] == [b];
    BulletsOne(b);
  }

  /** makeAnswer once the chunks are picked. */
  function Compose(top: seq<Retriever.Hit>): (r: Reply)
    ensures top == [] ==> r == Reply(Apology, [])
    ensures |top| == 1 ==> r.answer == Summarize(top[0].chunk.paragraph, BestLength)
    ensures |top| == 2 ==>
      r.answer == Summarize(top[0].chunk.paragraph, BestLength) + SupportHeader + Bullet(top[1].chunk.paragraph)
    ensures |top| >= 3 ==>
      r.answer == Summarize(top[0].chunk.paragraph, BestLength) + SupportHeader
                  + Bullet(top[1].chunk.paragraph) + Bullet(top[2].chunk.paragraph)
    ensures |r.refs| == |top|
    ensures forall k :: 0 <= k < |top| ==>
      && r.refs[k].lectureId == top[k].chunk.lectureId
      && r.refs[k].lectureTitle == top[k].chunk.lectureTitle
      && r.refs[k].sessionNumber == top[k].chunk.lectureSession
      && |r.refs[k].excerpt| <= ExcerptLength + 3
  {
    if top == [] then Reply(Apology, [])
    else
      var support := Support(top);
      var best := Summarize(top[0].chunk.paragraph, BestLength);
      var answer := best + (if support == [] then "" else SupportHeader + Bullets(support));
      SupportBlock(top, best);
      Reply(answer, Map(RefOf, top))
  }

  /** The answer has a line break only when there is support: three for the
      header and one per bullet, so one or two bullets. */
  lemma ComposeLines(top: seq<Retriever.Hit>)
    requires top != []
    ensures Count(Compose(top).answer, '\n') == if |top| == 1 then 0 else 3 + |Support(top)|
    ensures |top| > 1 ==> 1 <= |Support(top)| <= 2
  {
    var support := Support(top);
    var best := Summarize(top[0].chunk.paragraph, BestLength);
    CountCollapsedNewlines(best);
    if support == [] {
      assert Compose(top).answer == best + "";
      assert best + "" == best;
    } else {
      HeaderLines();
      CountAppend(SupportHeader, Bullets(support), '\n');
      BulletsLines(support);
      CountAppend(best, SupportHeader + Bullets(support), '\n');
    }
  }

  /** Each reference quotes its chunk's paragraph as summarised to 170 characters. */
  lemma ComposeExcerpts(top: seq<Retriever.Hit>)
    ensures forall k :: 0 <= k < |top| ==> Compose(top).refs[k].excerpt == Summarize(top[k].chunk.paragraph, ExcerptLength)
  {
  }

  /** makeAnswer: pick the chunks for the question, then compose. */
  function MakeAnswer(index: seq<Chunker.Chunk>, question: string, cs: Normalizer.CharClasses): (r: Reply)
    ensures |r.refs| <= Retriever.DefaultLimit
  {
    Compose(Retriever.Ask(index, question, cs))
  }

  /** The apology comes back, with no references, exactly when no chunk of
      the index shares a token with the question. */
  lemma MakeAnswerApologizes(index: seq<Chunker.Chunk>, question: string, cs: Normalizer.CharClasses)
    ensures MakeAnswer(index, question, cs).refs == []
        <==> forall i :: 0 <= i < |index| ==> Retriever.ScoreChunk(Normalizer.Tokenize(question, cs), index[i].tokens) == 0.0
    ensures MakeAnswer(index, question, cs).refs == [] ==> MakeAnswer(index, question, cs).answer == Apology
  {
    var q := Normalizer.Tokenize(question, cs);
    Retriever.PickTopChunksEmpty(index, q, Retriever.DefaultLimit);
  }

  /** The question the submit handler answers: the trimmed input, or none
      when the input is blank. */
  function SubmittedQuestion(input: string): (r: Option<string>)
    ensures r.None? <==> AllSpace(input)
    ensures r.Some? ==> r.value != [] && Trimmed(r.value) && |r.value| <= |input|
  {
    var q := Trim(input);
    if q == [] then None else Some(q)
  }
}

=== FILE: chunker.dfy ===
/** Paragraph splitting and the chunk index of the question-answering
    pipeline (chat.js, lines 29-57). The module-level `ALL_CHUNKS` is not a
    global here: BuildChunks returns the index and callers pass it on.
    The tokenizer is a parameter: the pipeline passes Normalizer.Tokenize
    (see Retriever.Tokenizer), and nothing proved here depends on how it
    splits a paragraph. */
module Chunker {
  import opened Seqs
  import opened Text
  import LectureStore

  /** A paragraph is indexed only when it is longer than this. */
  const MinParagraphLength: nat := 50

  /** What every indexed paragraph looks like. */
  predicate IsParagraph(p: string) {
    |p| > MinParagraphLength && Trimmed(p) && '\n' !in p
  }

  /** `pieces.map((p) => p.trim()).filter((p) => p.length > 50)`. */
  function TrimAndKeepLong(pieces: seq<string>, bound: nat): (r: seq<string>)
    requires forall i :: 0 <= i < |pieces| ==> '\n' !in pieces[i] && |pieces[i]| <= bound
    ensures forall i :: 0 <= i < |r| ==> IsParagraph(r[i]) && |r[i]| <= bound
    ensures bound <= MinParagraphLength ==> r == []
    decreases |pieces|
  {
    if pieces == [] then []
    else
      var t := Trim(pieces[0]);
      var rest := TrimAndKeepLong(pieces[1..], bound);
      if |t| > MinParagraphLength then
        TrimmedPiece(pieces[0], t);
        ConsParagraph(t, rest, bound);
        [t] + rest
      else rest
  }

  lemma TrimmedPiece(piece: string, t: string)
    requires '\n' !in piece && t == Trim(piece)
    ensures '\n' !in t && Trimmed(t) && |t| <= |piece|
  {
  }

  lemma ConsParagraph(t: string, rest: seq<string>, bound: nat)
    requires IsParagraph(t) && |t| <= bound
    requires forall i :: 0 <= i < |rest| ==> IsParagraph(rest[i]) && |rest[i]| <= bound
    ensures forall i :: 0 <= i < |[t] + rest| ==> IsParagraph(([t] + rest)[i]) && |([t] + rest)[i]| <= bound
  {
    forall i | 0 <= i < |[t] + rest| ensures IsParagraph(([t] + rest)[i]) && |([t] + rest)[i]| <= bound {
      if i > 0 {
        assert ([t] + rest)[i] == rest[i - 1];
      }
    }
  }

  /** splitParagraphs: split on runs of newlines, trim, keep what is longer
      than 50 characters. */
  function SplitParagraphs(text: string): (r: seq<string>)
    ensures forall i :: 0 <= i < |r| ==> IsParagraph(r[i]) && |r[i]| <= |text|
    ensures |text| <= MinParagraphLength ==> r == []
  {
    TrimAndKeepLong(SplitRuns(text, '\n'), |text|)
  }

  /** Longer than the paragraph threshold. */
  predicate LongEnough(p: string) {
    |p| > MinParagraphLength
  }

  lemma {:induction false} TrimAndKeepLongIsFilter(pieces: seq<string>, bound: nat)
    requires forall i :: 0 <= i < |pieces| ==> '\n' !in pieces[i] && |pieces[i]| <= bound
    ensures TrimAndKeepLong(pieces, bound) == Filter(LongEnough, Map(Trim, pieces))
    decreases |pieces|
  {
    if pieces != [] {
      TrimAndKeepLongIsFilter(pieces[1..], bound);
      FilterTrimmedCons(pieces);
    }
  }

  lemma FilterTrimmedCons(pieces: seq<string>)
    requires pieces != []
    ensures var t := Trim(pieces[0]);
            Filter(LongEnough, Map(Trim, pieces))
              == if LongEnough(t) then [t] + Filter(LongEnough, Map(Trim, pieces[1..])) else Filter(LongEnough, Map(Trim, pieces[1..]))
  {
    var trimmed := Map(Trim, pieces);
    assert trimmed[0] == Trim(pieces[0]);
    assert trimmed[1..] == Map(Trim, pieces[1..]);
  }

  /** The paragraphs are the trimmed pieces between runs of newlines that
      are longer than 50 characters, in their order in the text, each as
      often as it occurs there. */
  lemma SplitParagraphsPieces(text: string)
    ensures IsSubseq(SplitParagraphs(text), Map(Trim, SplitRuns(text, '\n')))
    ensures forall p ::
      multiset(SplitParagraphs(text))[p] == if |p| > MinParagraphLength then multiset(Map(Trim, SplitRuns(text, '\n')))[p] else 0
    ensures forall p :: p in SplitParagraphs(text) <==> |p| > MinParagraphLength && p in Map(Trim, SplitRuns(text, '\n'))
  {
    var trimmed := Map(Trim, SplitRuns(text, '\n'));
    TrimAndKeepLongIsFilter(SplitRuns(text, '\n'), |text|);
    FilterMultiset(LongEnough, trimmed);
    forall p ensures p in SplitParagraphs(text) <==> |p| > MinParagraphLength && p in trimmed {
      FilterMembership(LongEnough, trimmed, p);
    }
  }

  /** A chunk of the index: one paragraph of one lecture. */
  datatype Chunk = Chunk(
    id: string,
    lectureId: string,
    lectureTitle: string,
    lectureSession: real,
    paragraph: string,
    tokens: seq<string>)

  /** The id of the `k`-th paragraph (1-based) of a lecture: `<lectureId>-p-<k>`. */
  function ChunkId(lectureId: string, k: nat): string {
    lectureId + "-p-" + NatToString(k)
  }

  /** The chunk for the `k`-th paragraph of lecture `l`. */
  function MakeChunk(l: LectureStore.Lecture, paragraph: string, k: nat, tokenize: string -> seq<string>): Chunk {
    Chunk(ChunkId(l.id, k), l.id, l.title, l.sessionNumber, paragraph, tokenize(paragraph))
  }

  /** The chunks of paragraphs `ps` of lecture `l`, numbered from `first`. */
  function NumberedChunks(l: LectureStore.Lecture, ps: seq<string>, first: nat, tokenize: string -> seq<string>): (r: seq<Chunk>)
    ensures |r| == |ps|
    decreases |ps|
  {
    if ps == [] then []
    else [MakeChunk(l, ps[0], first, tokenize)] + NumberedChunks(l, ps[1..], first + 1, tokenize)
  }

  lemma {:induction false} NumberedChunkAt(l: LectureStore.Lecture, ps: seq<string>, first: nat, tokenize: string -> seq<string>, k: nat)
    requires k < |ps|
    ensures NumberedChunks(l, ps, first, tokenize)[k] == MakeChunk(l, ps[k], first + k, tokenize)
    decreases |ps|
  {
    if k > 0 {
      NumberedChunkAt(l, ps[1..], first + 1, tokenize, k - 1);
    }
  }

  /** The chunks of one lecture, in paragraph order, numbered from 1. */
  function LectureChunks(l: LectureStore.Lecture, tokenize: string -> seq<string>): (r: seq<Chunk>)
    ensures |r| == |SplitParagraphs(l.text)|
  {
    NumberedChunks(l, SplitParagraphs(l.text), 1, tokenize)
  }

  /** The `k`-th chunk of a lecture holds its `k`-th paragraph, numbered `k + 1`. */
  lemma LectureChunkAt(l: LectureStore.Lecture, tokenize: string -> seq<string>, k: nat)
    requires k < |SplitParagraphs(l.text)|
    ensures LectureChunks(l, tokenize)[k] == MakeChunk(l, SplitParagraphs(l.text)[k], k + 1, tokenize)
  {
    NumberedChunkAt(l, SplitParagraphs(l.text), 1, tokenize, k);
  }

  /** Number of paragraphs over a list of lectures. */
  function ParagraphCount(lectures: seq<LectureStore.Lecture>): nat
    decreases |lectures|
  {
    if lectures == [] then 0
    else |SplitParagraphs(lectures[0].text)| + ParagraphCount(lectures[1..])
  }

  /** A well-formed chunk taken from one of the lectures. */
  ghost predicate ChunkOf(lectures: seq<LectureStore.Lecture>, c: Chunk, tokenize: string -> seq<string>) {
    && IsParagraph(c.paragraph)
    && c.tokens == tokenize(c.paragraph)
    && exists l :: l in lectures && FromLecture(c, l)
  }

  /** The chunk carries l's id, title and session number and one of l's
      paragraphs. */
  ghost predicate FromLecture(c: Chunk, l: LectureStore.Lecture) {
    c.lectureId == l.id && c.lectureTitle == l.title
    && c.lectureSession == l.sessionNumber && c.paragraph in SplitParagraphs(l.text)
  }

  /** buildChunks: the chunks of every lecture, lecture after lecture; one
      chunk per paragraph. */
  function BuildChunks(lectures: seq<LectureStore.Lecture>, tokenize: string -> seq<string>): (r: seq<Chunk>)
    ensures |r| == ParagraphCount(lectures)
    decreases |lectures|
  {
    if lectures == [] then []
    else LectureChunks(lectures[0], tokenize) + BuildChunks(lectures[1..], tokenize)
  }

  /** Every chunk holds a paragraph of one of the lectures, trimmed, free of
      newlines and longer than 50 characters, with that lecture's id, title
      and session number and the tokens of its paragraph. */
  lemma BuildChunksWellFormed(lectures: seq<LectureStore.Lecture>, tokenize: string -> seq<string>)
    ensures forall i :: 0 <= i < |BuildChunks(lectures, tokenize)| ==> ChunkOf(lectures, BuildChunks(lectures, tokenize)[i], tokenize)
  {
    forall i | 0 <= i < |BuildChunks(lectures, tokenize)| ensures ChunkOf(lectures, BuildChunks(lectures, tokenize)[i], tokenize) {
      ChunkOfAt(lectures, tokenize, i);
    }
  }

  lemma {:induction false} ChunkOfAt(lectures: seq<LectureStore.Lecture>, tokenize: string -> seq<string>, i: nat)
    requires i < |BuildChunks(lectures, tokenize)|
    ensures ChunkOf(lectures, BuildChunks(lectures, tokenize)[i], tokenize)
    decreases |lectures|
  {
    BuildChunksAt(lectures, tokenize, i);
    if i < |LectureChunks(lectures[0], tokenize)| {
      OwnChunkOf(lectures, tokenize, i);
    } else {
      ChunkOfAt(lectures[1..], tokenize, i - |LectureChunks(lectures[0], tokenize)|);
      assert lectures != [] && |LectureChunks(lectures[0], tokenize)| <= i < |BuildChunks(lectures, tokenize)|;
      assert i - |LectureChunks(lectures[0], tokenize)| < |BuildChunks(lectures[1..], tokenize)|;
      assert BuildChunks(lectures, tokenize)[i] == BuildChunks(lectures[1..], tokenize)[i - |LectureChunks(lectures[0], tokenize)|];
      assert ChunkOf(lectures[1..], BuildChunks(lectures[1..], tokenize)[i - |LectureChunks(lectures[0], tokenize)|], tokenize);
      LaterChunkOf(lectures, tokenize, i);
    }
  }

  /** The i-th chunk is the i-th chunk of the first lecture, or else the
      matching chunk of the later lectures. */
  lemma BuildChunksAt(lectures: seq<LectureStore.Lecture>, tokenize: string -> seq<string>, i: nat)
    requires i < |BuildChunks(lectures, tokenize)|
    ensures lectures != []
    ensures var own := LectureChunks(lectures[0], tokenize);
            var rest := BuildChunks(lectures[1..], tokenize);
            if i < |own| then BuildChunks(lectures, tokenize)[i] == own[i]
            else i - |own| < |rest| && BuildChunks(lectures, tokenize)[i] == rest[i - |own|]
  {
    var own := LectureChunks(lectures[0], tokenize);
    var rest := BuildChunks(lectures[1..], tokenize);
    assert BuildChunks(lectures, tokenize) == own + rest;
  }

  /** A chunk of the first lecture is a chunk of the list. */
  lemma OwnChunkOf(lectures: seq<LectureStore.Lecture>, tokenize: string -> seq<string>, i: nat)
    requires lectures != [] && i < |LectureChunks(lectures[0], tokenize)|
    requires i < |BuildChunks(lectures, tokenize)|
    requires BuildChunks(lectures, tokenize)[i] == LectureChunks(lectures[0], tokenize)[i]
    ensures ChunkOf(lectures, BuildChunks(lectures, tokenize)[i], tokenize)
  {
    var l := lectures[0];
    LectureChunkAt(l, tokenize, i);
    assert l in lectures;
  }

  /** A chunk of the later lectures is a chunk of the list. */
  lemma LaterChunkOf(lectures: seq<LectureStore.Lecture>, tokenize: string -> seq<string>, i: nat)
    requires lectures != [] && |LectureChunks(lectures[0], tokenize)| <= i < |BuildChunks(lectures, tokenize)|
    requires i - |LectureChunks(lectures[0], tokenize)| < |BuildChunks(lectures[1..], tokenize)|
    requires BuildChunks(lectures, tokenize)[i] == BuildChunks(lectures[1..], tokenize)[i - |LectureChunks(lectures[0], tokenize)|]
    requires ChunkOf(lectures[1..], BuildChunks(lectures[1..], tokenize)[i - |LectureChunks(lectures[0], tokenize)|], tokenize)
    ensures ChunkOf(lectures, BuildChunks(lectures, tokenize)[i], tokenize)
  {
    var c := BuildChunks(lectures, tokenize)[i];
    var l :| l in lectures[1..] && FromLecture(c, l);
    assert l in lectures;
  }

  /** The index of two lists of lectures is the index of the first followed
      by the index of the second. */
  lemma {:induction false} BuildChunksAppend(a: seq<LectureStore.Lecture>, b: seq<LectureStore.Lecture>, tokenize: string -> seq<string>)
    ensures BuildChunks(a + b, tokenize) == BuildChunks(a, tokenize) + BuildChunks(b, tokenize)
    decreases |a|
  {
    if a == [] {
      assert a + b == b;
    } else {
      assert (a + b)[0] == a[0];
      assert (a + b)[1..] == a[1..] + b;
      BuildChunksAppend(a[1..], b, tokenize);
    }
  }

  lemma BuildChunksAround(lectures: seq<LectureStore.Lecture>, tokenize: string -> seq<string>, i: nat)
    requires i < |lectures|
    ensures BuildChunks(lectures, tokenize)
         == BuildChunks(lectures[..i], tokenize) + (LectureChunks(lectures[i], tokenize) + BuildChunks(lectures[i + 1..], tokenize))
  {
    assert lectures == lectures[..i] + lectures[i..];
    BuildChunksAppend(lectures[..i], lectures[i..], tokenize);
    assert lectures[i..][0] == lectures[i] && lectures[i..][1..] == lectures[i + 1..];
  }

  /** The chunks of lecture `i` follow the chunks of the lectures before it. */
  lemma ChunksOfLectureAt(lectures: seq<LectureStore.Lecture>, tokenize: string -> seq<string>, i: nat, k: nat)
    requires i < |lectures|
    requires k < |LectureChunks(lectures[i], tokenize)|
    ensures |BuildChunks(lectures[..i], tokenize)| + k < |BuildChunks(lectures, tokenize)|
    ensures BuildChunks(lectures, tokenize)[|BuildChunks(lectures[..i], tokenize)| + k] == LectureChunks(lectures[i], tokenize)[k]
  {
    var before := BuildChunks(lectures[..i], tokenize);
    var here := LectureChunks(lectures[i], tokenize);
    var after := BuildChunks(lectures[i + 1..], tokenize);
    BuildChunksAround(lectures, tokenize, i);
    IndexMiddle(before, here, after, k);
  }

  /** Lectures are visited in order and paragraphs are numbered from 1 within
      each lecture: the `k`-th paragraph of lecture `i` comes right after the
      chunks of the lectures before it, numbered `k + 1`. */
  lemma ChunkAt(lectures: seq<LectureStore.Lecture>, tokenize: string -> seq<string>, i: nat, k: nat)
    requires i < |lectures|
    requires k < |SplitParagraphs(lectures[i].text)|
    ensures |BuildChunks(lectures[..i], tokenize)| + k < |BuildChunks(lectures, tokenize)|
    ensures BuildChunks(lectures, tokenize)[|BuildChunks(lectures[..i], tokenize)| + k]
         == MakeChunk(lectures[i], SplitParagraphs(lectures[i].text)[k], k + 1, tokenize)
  {
    ChunksOfLectureAt(lectures, tokenize, i, k);
    LectureChunkAt(lectures[i], tokenize, k);
  }

  /** The chunk ids follow the `<lectureId>-p-<k>` scheme, k counted from 1. */
  lemma ChunkIdAt(lectures: seq<LectureStore.Lecture>, tokenize: string -> seq<string>, i: nat, k: nat)
    requires i < |lectures|
    requires k < |SplitParagraphs(lectures[i].text)|
    ensures |BuildChunks(lectures[..i], tokenize)| + k < |BuildChunks(lectures, tokenize)|
    ensures BuildChunks(lectures, tokenize)[|BuildChunks(lectures[..i], tokenize)| + k].id == ChunkId(lectures[i].id, k + 1)
  {
    ChunkAt(lectures, tokenize, i, k);
  }

  /** A lecture with no text contributes no chunk. */
  lemma EmptyTextHasNoChunks(l: LectureStore.Lecture, tokenize: string -> seq<string>)
    requires l.text == ""
    ensures LectureChunks(l, tokenize) == []
  {
  }
}

=== FILE: html.dfy ===
/** `escapeHtml` (chat.js, lines 139-146): five `replaceAll` passes, the
    ampersand first, so that no entity is escaped twice. */
module Html {

  /** `s.replaceAll(c, rep)` for a one-character pattern. */
  function ReplaceAll(s: string, c: char, rep: string): (r: string)
    ensures forall x :: x in r ==> (x in s && x != c) || x in rep
    decreases |s|
  {
    if s == [] then []
    else (if s[0] == c then rep else [s[0]]) + ReplaceAll(s[1..], c, rep)
  }

  lemma {:induction false} ReplaceAllAppend(a: string, b: string, c: char, rep: string)
    ensures ReplaceAll(a + b, c, rep) == ReplaceAll(a, c, rep) + ReplaceAll(b, c, rep)
    decreases |a|
  {
    if a == [] {
      assert a + b == b;
    } else {
      assert (a + b)[0] == a[0];
      assert (a + b)[1..] == a[1..] + b;
      ReplaceAllAppend(a[1..], b, c, rep);
    }
  }

  /** The five passes of escapeHtml, in the order the source applies them. */
  function EscapeHtml(s: string): (r: string)
    ensures '<' !in r && '>' !in r && '"' !in r && '\'' !in r
  {
    var s1 := ReplaceAll(s, '&', "&amp;");
    var s2 := ReplaceAll(s1, '<', "&lt;");
    var s3 := ReplaceAll(s2, '>', "&gt;");
    var s4 := ReplaceAll(s3, '"', "&quot;");
    ReplaceAll(s4, '\'', "&#39;")
  }

  /** The entity of one character: each character of markup escaped once. */
  function EscapeChar(c: char): string {
    match c
    case '&' => "&amp;"
    case '<' => "&lt;"
    case '>' => "&gt;"
    case '"' => "&quot;"
    case '\'' => "&#39;"
    case _ => [c]
  }

  /** An independent, single-pass reading of escaping. */
  function EscapeEach(s: string): string
    decreases |s|
  {
    if s == [] then [] else EscapeChar(s[0]) + EscapeEach(s[1..])
  }

  lemma ReplaceAllAbsent(s: string, c: char, rep: string)
    requires c !in s
    ensures ReplaceAll(s, c, rep) == s
    decreases |s|
  {
    if s != [] {
      ReplaceAllAbsent(s[1..], c, rep);
    }
  }

  lemma ReplaceAllSingle(x: char, c: char, rep: string)
    ensures ReplaceAll([x], c, rep) == if x == c then rep else [x]
  {
    assert [x][1..] == [];
  }

  lemma EscapeAmpersand()
    ensures EscapeHtml(['&']) == EscapeChar('&')
  {
    ReplaceAllSingle('&', '&', "&amp;");
    assert '<' !in "&amp;" && '>' !in "&amp;" && '"' !in "&amp;" && '\'' !in "&amp;";
    ReplaceAllAbsent("&amp;", '<', "&lt;");
    ReplaceAllAbsent("&amp;", '>', "&gt;");
    ReplaceAllAbsent("&amp;", '"', "&quot;");
    ReplaceAllAbsent("&amp;", '\'', "&#39;");
  }

  lemma EscapeLessThan()
    ensures EscapeHtml(['<']) == EscapeChar('<')
  {
    ReplaceAllSingle('<', '&', "&amp;");
    ReplaceAllSingle('<', '<', "&lt;");
    assert '>' !in "&lt;" && '"' !in "&lt;" && '\'' !in "&lt;";
    ReplaceAllAbsent("&lt;", '>', "&gt;");
    ReplaceAllAbsent("&lt;", '"', "&quot;");
    ReplaceAllAbsent("&lt;", '\'', "&#39;");
  }

  lemma EscapeGreaterThan()
    ensures EscapeHtml(['>']) == EscapeChar('>')
  {
    ReplaceAllSingle('>', '&', "&amp;");
    ReplaceAllSingle('>', '<', "&lt;");
    ReplaceAllSingle('>', '>', "&gt;");
    assert '"' !in "&gt;" && '\'' !in "&gt;";
    ReplaceAllAbsent("&gt;", '"', "&quot;");
    ReplaceAllAbsent("&gt;", '\'', "&#39;");
  }

  lemma EscapeQuote()
    ensures EscapeHtml(['"']) == EscapeChar('"')
  {
    ReplaceAllSingle('"', '&', "&amp;");
    ReplaceAllSingle('"', '<', "&lt;");
    ReplaceAllSingle('"', '>', "&gt;");
    ReplaceAllSingle('"', '"', "&quot;");
    assert '\'' !in "&quot;";
    ReplaceAllAbsent("&quot;", '\'', "&#39;");
  }

  lemma EscapeApostrophe()
    ensures EscapeHtml(['\'']) == EscapeChar('\'')
  {
    ReplaceAllSingle('\'', '&', "&amp;");
    ReplaceAllSingle('\'', '<', "&lt;");
    ReplaceAllSingle('\'', '>', "&gt;");
    ReplaceAllSingle('\'', '"', "&quot;");
    ReplaceAllSingle('\'', '\'', "&#39;");
  }

  lemma EscapeOther(c: char)
    requires c !in "&<>\"'"
    ensures EscapeHtml([c]) == [c]
  {
    ReplaceAllSingle(c, '&', "&amp;");
    ReplaceAllSingle(c, '<', "&lt;");
    ReplaceAllSingle(c, '>', "&gt;");
    ReplaceAllSingle(c, '"', "&quot;");
    ReplaceAllSingle(c, '\'', "&#39;");
  }

  lemma EscapeHtmlOfChar(c: char)
    ensures EscapeHtml([c]) == EscapeChar(c)
  {
    match c
    case '&' => EscapeAmpersand();
    case '<' => EscapeLessThan();
    case '>' => EscapeGreaterThan();
    case '"' => EscapeQuote();
    case '\'' => EscapeApostrophe();
    case _ => EscapeOther(c);
  }

  lemma EscapeHtmlAppend(a: string, b: string)
    ensures EscapeHtml(a + b) == EscapeHtml(a) + EscapeHtml(b)
  {
    ReplaceAllAppend(a, b, '&', "&amp;");
    var a1, b1 := ReplaceAll(a, '&', "&amp;"), ReplaceAll(b, '&', "&amp;");
    ReplaceAllAppend(a1, b1, '<', "&lt;");
    var a2, b2 := ReplaceAll(a1, '<', "&lt;"), ReplaceAll(b1, '<', "&lt;");
    ReplaceAllAppend(a2, b2, '>', "&gt;");
    var a3, b3 := ReplaceAll(a2, '>', "&gt;"), ReplaceAll(b2, '>', "&gt;");
    ReplaceAllAppend(a3, b3, '"', "&quot;");
    var a4, b4 := ReplaceAll(a3, '"', "&quot;"), ReplaceAll(b3, '"', "&quot;");
    ReplaceAllAppend(a4, b4, '\'', "&#39;");
  }

  /** Because the ampersand goes first, the five passes escape every
      character exactly once: no `&amp;lt;` ever appears. */
  lemma {:induction false} EscapeHtmlIsEscapeEach(s: string)
    ensures EscapeHtml(s) == EscapeEach(s)
    decreases |s|
  {
    if s != [] {
      assert s == [s[0]] + s[1..];
      EscapeHtmlAppend([s[0]], s[1..]);
      EscapeHtmlOfChar(s[0]);
      EscapeHtmlIsEscapeEach(s[1..]);
    }
  }

  /** The entities escapeHtml emits. */
  predicate StartsEntity(t: string) {
    || "&amp;" <= t
    || "&lt;" <= t
    || "&gt;" <= t
    || "&quot;" <= t
    || "&#39;" <= t
  }

  /** Every ampersand of `r` begins one of the five entities. */
  predicate AmpersandsAreEntities(r: string) {
    forall i :: 0 <= i < |r| && r[i] == '&' ==> StartsEntity(r[i..])
  }

  lemma {:induction false} EscapeEachAmpersands(s: string)
    ensures AmpersandsAreEntities(EscapeEach(s))
    decreases |s|
  {
    if s != [] {
      var head := EscapeChar(s[0]);
      var rest := EscapeEach(s[1..]);
      var r := head + rest;
      EscapeEachAmpersands(s[1..]);
      forall i | 0 <= i < |r| && r[i] == '&' ensures StartsEntity(r[i..]) {
        if i < |head| {
          assert head[i] == '&';
          assert i == 0;
          assert head <= r;
        } else {
          assert r[i..] == rest[i - |head|..];
        }
      }
    }
  }

  /** The output of escapeHtml has no `<`, `>`, `"` or `'`, and each of its
      ampersands begins an entity. */
  lemma EscapeHtmlIsSafe(s: string)
    ensures AmpersandsAreEntities(EscapeHtml(s))
  {
    EscapeHtmlIsEscapeEach(s);
    EscapeEachAmpersands(s);
  }

  /** Decodes the five entities escapeHtml emits; any other character stands
      for itself. */
  function Unescape(t: string): string
    decreases |t|
  {
    if t == [] then []
    else if "&amp;" <= t then "&" + Unescape(t[5..])
    else if "&lt;" <= t then "<" + Unescape(t[4..])
    else if "&gt;" <= t then ">" + Unescape(t[4..])
    else if "&quot;" <= t then "\"" + Unescape(t[6..])
    else if "&#39;" <= t then "'" + Unescape(t[5..])
    else [t[0]] + Unescape(t[1..])
  }

  lemma UnescapeChar(c: char, rest: string)
    ensures Unescape(EscapeChar(c) + rest) == [c] + Unescape(rest)
  {
    match c
    case '&' => UnescapeEntity("&amp;", rest);
    case '<' => UnescapeEntity("&lt;", rest);
    case '>' => UnescapeEntity("&gt;", rest);
    case '"' => UnescapeEntity("&quot;", rest);
    case '\'' => UnescapeEntity("&#39;", rest);
    case _ => UnescapePlain(c, rest);
  }

  /** An entity at the front decodes to its character. */
  lemma UnescapeEntity(e: string, rest: string)
    requires e in {"&amp;", "&lt;", "&gt;", "&quot;", "&#39;"}
    ensures Unescape(e + rest) == Decoded(e) + Unescape(rest)
  {
    var t := e + rest;
    assert t[..|e|] == e && t[|e|..] == rest;
    assert t[0] == '&' && t[1] == e[1];
  }

  /** The character each entity stands for. */
  function Decoded(e: string): string {
    if e == "&amp;" then "&"
    else if e == "&lt;" then "<"
    else if e == "&gt;" then ">"
    else if e == "&quot;" then "\""
    else "'"
  }

  lemma UnescapePlain(c: char, rest: string)
    requires c !in "&<>\"'"
    ensures Unescape([c] + rest) == [c] + Unescape(rest)
  {
    var t := [c] + rest;
    assert t[0] == c && t[1..] == rest;
  }

  /** Escaping loses nothing: decoding the escaped text gives the text back. */
  lemma {:induction false} UnescapeEscapeHtml(s: string)
    ensures Unescape(EscapeHtml(s)) == s
  {
    EscapeHtmlIsEscapeEach(s);
    UnescapeEscapeEach(s);
  }

  lemma {:induction false} UnescapeEscapeEach(s: string)
    ensures Unescape(EscapeEach(s)) == s
    decreases |s|
  {
    if s != [] {
      UnescapeChar(s[0], EscapeEach(s[1..]));
      UnescapeEscapeEach(s[1..]);
    }
  }
}

=== FILE: lecture_store.dfy ===
/** The lecture list of data-store.js as pure list operations. Storage is
    left out: the list read from storage is an argument and the list to be
    written back is the result. `Date.now()` is the argument `now`, and the
    Farsi collation of `localeCompare(…, "fa")` is the argument `before`. */
module LectureStore {
  import opened Wrappers
  import opened Seqs
  import opened Text

  /** The value of `Number(x)` for a stored field: NaN or a finite number. */
  datatype JsNumber = NaN | Finite(value: real)

  /** A lecture as found in storage or supplied by a caller. A string field
      is `None` when it is missing, `null` or `undefined`. */
  datatype RawLecture = RawLecture(
    id: Option<string>,
    title: Option<string>,
    date: Option<string>,
    location: Option<string>,
    collection: Option<string>,
    topic: Option<string>,
    sessionNumber: JsNumber,
    duration: Option<string>,
    audio: Option<string>,
    text: Option<string>)

  /** A lecture after normalizeLecture: every field present. */
  datatype Lecture = Lecture(
    id: string,
    title: string,
    date: string,
    location: string,
    collection: string,
    topic: string,
    sessionNumber: real,
    duration: string,
    audio: string,
    text: string)

  const UntitledTitle: string := "بدون عنوان"
  const OtherCollection: string := "سایر"
  const GeneralTopic: string := "عمومی"
  const DefaultDuration: string := "30 دقیقه"

  /** A string field that JavaScript's `||` keeps: present and non-empty. */
  predicate Truthy(f: Option<string>) {
    f.Some? && f.value != ""
  }

  /** `field || fallback`. */
  function OrDefault(f: Option<string>, fallback: string): (r: string)
    ensures Truthy(f) ==> r == f.value
    ensures !Truthy(f) ==> r == fallback
  {
    if Truthy(f) then f.value else fallback
  }

  /** The id given to a lecture that has none: `lec-<now>-<index>`. */
  function GeneratedId(now: nat, index: nat): string {
    "lec-" + NatToString(now) + "-" + NatToString(index)
  }

  /** `Number(x) || index + 1`: NaN and zero are falsy. */
  function SessionOr(n: JsNumber, index: nat): (r: real)
    ensures r != 0.0
    ensures n.Finite? && n.value != 0.0 ==> r == n.value
    ensures !(n.Finite? && n.value != 0.0) ==> r == (index + 1) as real
  {
    if n.Finite? && n.value != 0.0 then n.value else (index + 1) as real
  }

  /** The fields normalizeLecture always fills with something truthy. */
  predicate Normalized(l: Lecture) {
    && l.id != "" && l.title != "" && l.collection != "" && l.topic != ""
    && l.duration != "" && l.sessionNumber != 0.0
  }

  /** normalizeLecture: truthy fields are kept, falsy ones get the fixed defaults. */
  function NormalizeLecture(raw: RawLecture, index: nat, now: nat): (r: Lecture)
    ensures Normalized(r)
    ensures r.id == (if Truthy(raw.id) then raw.id.value else GeneratedId(now, index))
    ensures r.title == (if Truthy(raw.title) then raw.title.value else UntitledTitle)
    ensures r.collection == (if Truthy(raw.collection) then raw.collection.value else OtherCollection)
    ensures r.topic == (if Truthy(raw.topic) then raw.topic.value else GeneralTopic)
    ensures r.duration == (if Truthy(raw.duration) then raw.duration.value else DefaultDuration)
    ensures r.date == raw.date.GetOr("") && r.location == raw.location.GetOr("")
    ensures r.audio == raw.audio.GetOr("") && r.text == raw.text.GetOr("")
    ensures raw.sessionNumber.Finite? && raw.sessionNumber.value != 0.0 ==> r.sessionNumber == raw.sessionNumber.value
    ensures !(raw.sessionNumber.Finite? && raw.sessionNumber.value != 0.0) ==> r.sessionNumber == (index + 1) as real
  {
    Lecture(
      OrDefault(raw.id, GeneratedId(now, index)),
      OrDefault(raw.title, UntitledTitle),
      OrDefault(raw.date, ""),
      OrDefault(raw.location, ""),
      OrDefault(raw.collection, OtherCollection),
      OrDefault(raw.topic, GeneralTopic),
      SessionOr(raw.sessionNumber, index),
      OrDefault(raw.duration, DefaultDuration),
      OrDefault(raw.audio, ""),
      OrDefault(raw.text, ""))
  }

  /** A normalised lecture seen again as stored data. */
  function ToRaw(l: Lecture): RawLecture {
    RawLecture(Some(l.id), Some(l.title), Some(l.date), Some(l.location), Some(l.collection),
      Some(l.topic), Finite(l.sessionNumber), Some(l.duration), Some(l.audio), Some(l.text))
  }

  /** Normalising a normalised lecture changes nothing, whatever its
      position and whatever the clock says. */
  lemma NormalizeLectureFixesNormalized(l: Lecture, index: nat, now: nat)
    requires Normalized(l)
    ensures NormalizeLecture(ToRaw(l), index, now) == l
  {
  }

  /** Hence normalizeLecture is idempotent. */
  lemma NormalizeLectureIdempotent(raw: RawLecture, i: nat, j: nat, now: nat, later: nat)
    ensures NormalizeLecture(ToRaw(NormalizeLecture(raw, i, now)), j, later) == NormalizeLecture(raw, i, now)
  {
    NormalizeLectureFixesNormalized(NormalizeLecture(raw, i, now), j, later);
  }

  /** `items.map(normalizeLecture)`: each item is normalised with its own position. */
  function NormalizeAll(items: seq<RawLecture>, now: nat): (r: seq<Lecture>)
    ensures |r| == |items|
    ensures forall i :: 0 <= i < |r| ==> r[i] == NormalizeLecture(items[i], i, now) && Normalized(r[i])
  {
    seq(|items|, i requires 0 <= i < |items| => NormalizeLecture(items[i], i, now))
  }

  /** The built-in lecture used when no seed list is installed. */
  const FallbackLectures: seq<RawLecture> := [
    RawLecture(Some("lec-fallback-1"), Some("شرح اسما حسنی - جلسه 1"), Some(""), Some(""),
      Some("اسما حسنای الهی"), Some("شرح اسما حسنی"), Finite(1.0), Some("30 دقیقه"), Some(""),
      Some("متن نمونه"))
  ]

  /** seedLectures: the installed seed list when it is a non-empty array,
      otherwise the fallback list. */
  function SeedLectures(installed: Option<seq<RawLecture>>): (r: seq<RawLecture>)
    ensures |r| >= 1
    ensures installed.Some? && |installed.value| > 0 ==> r == installed.value
    ensures !(installed.Some? && |installed.value| > 0) ==> r == FallbackLectures
  {
    if installed.Some? && |installed.value| > 0 then installed.value else FallbackLectures
  }

  /** One element of a parsed JSON array. Property access on `null` or
      `undefined` throws; on a number, string or boolean it yields `undefined`. */
  datatype JsElement = Nullish | Primitive | Object(fields: RawLecture)

  /** What `JSON.parse` made of the stored text. */
  datatype ParseOutcome = SyntaxError | NotAnArray | ArrayOf(items: seq<JsElement>)

  function FieldsOf(e: JsElement): RawLecture
    requires !e.Nullish?
  {
    if e.Object? then e.fields
    else RawLecture(None, None, None, None, None, None, NaN, None, None, None)
  }

  predicate HasNullish(items: seq<JsElement>) {
    exists i :: 0 <= i < |items| && items[i].Nullish?
  }

  /** parseLectures, with the outcome of `JSON.parse(raw)` as an argument.
      An absent or empty stored text, a parse error, a value that is not an
      array, or an array holding `null`/`undefined` (normalizing it throws
      inside the `try`) all give the normalised seed list. */
  function ParseLectures(raw: Option<string>, parsed: ParseOutcome, seed: seq<RawLecture>, now: nat): (r: seq<Lecture>)
    ensures !Truthy(raw) || !parsed.ArrayOf? || HasNullish(parsed.items) ==> r == NormalizeAll(seed, now)
    ensures Truthy(raw) && parsed.ArrayOf? && !HasNullish(parsed.items) ==>
      |r| == |parsed.items|
      && forall i :: 0 <= i < |r| ==> r[i] == NormalizeLecture(FieldsOf(parsed.items[i]), i, now)
  {
    if !Truthy(raw) then NormalizeAll(seed, now)
    else match parsed
      case SyntaxError => NormalizeAll(seed, now)
      case NotAnArray => NormalizeAll(seed, now)
      case ArrayOf(items) =>
        if HasNullish(items) then NormalizeAll(seed, now)
        else NormalizeAll(seq(|items|, i requires 0 <= i < |items| => FieldsOf(items[i])), now)
  }

  /** The `collection::topic::sessionNumber` key used to recognise a seed
      lecture that is already present. */
  datatype SeedKey = SeedKey(collection: string, topic: string, sessionNumber: real)

  function KeyOf(l: Lecture): SeedKey {
    SeedKey(l.collection, l.topic, l.sessionNumber)
  }

  function IdsOf(ls: seq<Lecture>): set<string> {
    set l | l in ls :: l.id
  }

  function KeysOf(ls: seq<Lecture>): set<SeedKey> {
    set l | l in ls :: KeyOf(l)
  }

  /** The `forEach` loop of mergeMissingSeed: a seed is added when neither
      its id nor its key is taken yet, and then takes both. */
  function AddMissing(seeds: seq<Lecture>, ids: set<string>, keys: set<SeedKey>): (r: seq<Lecture>)
    ensures IsSubseq(r, seeds)
    ensures forall i :: 0 <= i < |r| ==> r[i].id !in ids && KeyOf(r[i]) !in keys
    ensures forall i, j :: 0 <= i < j < |r| ==> r[i].id != r[j].id && KeyOf(r[i]) != KeyOf(r[j])
    ensures forall s :: s in seeds ==> s in r || s.id in ids + IdsOf(r) || KeyOf(s) in keys + KeysOf(r)
    decreases |seeds|
  {
    if seeds == [] then []
    else
      var s := seeds[0];
      if s.id !in ids && KeyOf(s) !in keys then
        var rest := AddMissing(seeds[1..], ids + {s.id}, keys + {KeyOf(s)});
        AddMissingCons(seeds, ids, keys, rest);
        [s] + rest
      else
        AddMissing(seeds[1..], ids, keys)
  }

  /** What the `forEach` loop adds for seed `s` after the seeds `before`
      were added: `s` itself, unless its id or key is already taken. */
  function AddedAfter(s: Lecture, ids: set<string>, keys: set<SeedKey>, before: seq<Lecture>): seq<Lecture> {
    if s.id in ids + IdsOf(before) || KeyOf(s) in keys + KeysOf(before) then [] else [s]
  }

  /** Seeds are taken first come, first served: a seed joins the added ones
      exactly when its id and key are free among the existing lectures and
      among the seeds added before it. */
  lemma {:induction false} AddMissingSnoc(seeds: seq<Lecture>, s: Lecture, ids: set<string>, keys: set<SeedKey>)
    ensures AddMissing(seeds + [s], ids, keys)
         == AddMissing(seeds, ids, keys) + AddedAfter(s, ids, keys, AddMissing(seeds, ids, keys))
    decreases |seeds|
  {
    if seeds == [] {
      assert seeds + [s] == [s];
      assert [s][1..] == [];
    } else {
      var h := seeds[0];
      assert (seeds + [s])[0] == h;
      assert (seeds + [s])[1..] == seeds[1..] + [s];
      if h.id !in ids && KeyOf(h) !in keys {
        var ids' := ids + {h.id};
        var keys' := keys + {KeyOf(h)};
        AddMissingSnoc(seeds[1..], s, ids', keys');
        SnocAfterFresh(h, AddMissing(seeds[1..], ids', keys'), s, ids, keys);
      } else {
        AddMissingSnoc(seeds[1..], s, ids, keys);
      }
    }
  }

  lemma SnocAfterFresh(h: Lecture, rest: seq<Lecture>, s: Lecture, ids: set<string>, keys: set<SeedKey>)
    ensures [h] + (rest + AddedAfter(s, ids + {h.id}, keys + {KeyOf(h)}, rest))
         == ([h] + rest) + AddedAfter(s, ids, keys, [h] + rest)
  {
    ConsIdsKeys(h, rest);
    assert AddedAfter(s, ids + {h.id}, keys + {KeyOf(h)}, rest) == AddedAfter(s, ids, keys, [h] + rest);
  }

  lemma ConsIdsKeys(h: Lecture, rest: seq<Lecture>)
    ensures IdsOf([h] + rest) == {h.id} + IdsOf(rest)
    ensures KeysOf([h] + rest) == {KeyOf(h)} + KeysOf(rest)
  {
    assert forall l :: l in [h] + rest <==> l == h || l in rest;
  }

  /** The step of AddMissing that keeps the first seed. */
  lemma AddMissingCons(seeds: seq<Lecture>, ids: set<string>, keys: set<SeedKey>, rest: seq<Lecture>)
    requires seeds != [] && seeds[0].id !in ids && KeyOf(seeds[0]) !in keys
    requires IsSubseq(rest, seeds[1..])
    requires forall i :: 0 <= i < |rest| ==> rest[i].id !in ids + {seeds[0].id} && KeyOf(rest[i]) !in keys + {KeyOf(seeds[0])}
    requires forall i, j :: 0 <= i < j < |rest| ==> rest[i].id != rest[j].id && KeyOf(rest[i]) != KeyOf(rest[j])
    requires forall s :: s in seeds[1..] ==> s in rest || s.id in ids + {seeds[0].id} + IdsOf(rest) || KeyOf(s) in keys + {KeyOf(seeds[0])} + KeysOf(rest)
    ensures IsSubseq([seeds[0]] + rest, seeds)
    ensures forall i :: 0 <= i < |[seeds[0]] + rest| ==> ([seeds[0]] + rest)[i].id !in ids && KeyOf(([seeds[0]] + rest)[i]) !in keys
    ensures forall i, j :: 0 <= i < j < |[seeds[0]] + rest| ==>
      ([seeds[0]] + rest)[i].id != ([seeds[0]] + rest)[j].id && KeyOf(([seeds[0]] + rest)[i]) != KeyOf(([seeds[0]] + rest)[j])
    ensures forall s :: s in seeds ==> s in [seeds[0]] + rest || s.id in ids + IdsOf([seeds[0]] + rest) || KeyOf(s) in keys + KeysOf([seeds[0]] + rest)
  {
    var h := seeds[0];
    var r := [h] + rest;
    assert r[0] == h && r[1..] == rest;
    ConsFresh(h, rest, ids, keys);
    ConsDistinct(h, rest);
    ConsCovers(seeds, ids, keys, rest);
  }

  lemma ConsFresh(h: Lecture, rest: seq<Lecture>, ids: set<string>, keys: set<SeedKey>)
    requires h.id !in ids && KeyOf(h) !in keys
    requires forall i :: 0 <= i < |rest| ==> rest[i].id !in ids + {h.id} && KeyOf(rest[i]) !in keys + {KeyOf(h)}
    ensures forall i :: 0 <= i < |[h] + rest| ==> ([h] + rest)[i].id !in ids && KeyOf(([h] + rest)[i]) !in keys
  {
    var r := [h] + rest;
    forall i | 0 <= i < |r| ensures r[i].id !in ids && KeyOf(r[i]) !in keys {
      if i > 0 { assert r[i] == rest[i - 1]; }
    }
  }

  lemma ConsDistinct(h: Lecture, rest: seq<Lecture>)
    requires forall i :: 0 <= i < |rest| ==> rest[i].id != h.id && KeyOf(rest[i]) != KeyOf(h)
    requires forall i, j :: 0 <= i < j < |rest| ==> rest[i].id != rest[j].id && KeyOf(rest[i]) != KeyOf(rest[j])
    ensures forall i, j :: 0 <= i < j < |[h] + rest| ==>
      ([h] + rest)[i].id != ([h] + rest)[j].id && KeyOf(([h] + rest)[i]) != KeyOf(([h] + rest)[j])
  {
    var r := [h] + rest;
    forall i, j | 0 <= i < j < |r| ensures r[i].id != r[j].id && KeyOf(r[i]) != KeyOf(r[j]) {
      assert r[j] == rest[j - 1];
      if i > 0 { assert r[i] == rest[i - 1]; }
    }
  }

  lemma ConsCovers(seeds: seq<Lecture>, ids: set<string>, keys: set<SeedKey>, rest: seq<Lecture>)
    requires seeds != []
    requires forall s :: s in seeds[1..] ==> s in rest || s.id in ids + {seeds[0].id} + IdsOf(rest) || KeyOf(s) in keys + {KeyOf(seeds[0])} + KeysOf(rest)
    ensures forall s :: s in seeds ==> s in [seeds[0]] + rest || s.id in ids + IdsOf([seeds[0]] + rest) || KeyOf(s) in keys + KeysOf([seeds[0]] + rest)
  {
    var h := seeds[0];
    var r := [h] + rest;
    assert IdsOf(r) == {h.id} + IdsOf(rest);
    assert KeysOf(r) == {KeyOf(h)} + KeysOf(rest);
    forall s | s in seeds ensures s in r || s.id in ids + IdsOf(r) || KeyOf(s) in keys + KeysOf(r) {
      if s != h {
        assert s in seeds[1..];
      }
    }
  }

  lemma {:induction false} SubseqMembers<T>(a: seq<T>, b: seq<T>, x: T)
    requires IsSubseq(a, b) && x in a
    ensures x in b
    decreases |b|
  {
    if a[0] == b[0] {
      if x != a[0] { SubseqMembers(a[1..], b[1..], x); }
    } else {
      SubseqMembers(a, b[1..], x);
    }
  }

  /** `localeCompare(…, "fa")` is assumed to order distinct strings strictly and totally. */
  ghost predicate StrictTotalOrder(before: (string, string) -> bool) {
    && (forall x :: !before(x, x))
    && (forall x, y, z :: before(x, y) && before(y, z) ==> before(x, z))
    && (forall x, y :: x != y ==> before(x, y) || before(y, x))
  }

  /** The comparator of mergeMissingSeed: collection, then topic, then
      ascending session number. */
  predicate SortsBefore(before: (string, string) -> bool, a: Lecture, b: Lecture) {
    if a.collection != b.collection then before(a.collection, b.collection)
    else if a.topic != b.topic then before(a.topic, b.topic)
    else a.sessionNumber < b.sessionNumber
  }

  ghost predicate SortedBy(before: (string, string) -> bool, s: seq<Lecture>) {
    forall i, j :: 0 <= i < j < |s| ==> !SortsBefore(before, s[j], s[i])
  }

  lemma SortsBeforeAsymmetric(before: (string, string) -> bool, a: Lecture, b: Lecture)
    requires StrictTotalOrder(before)
    requires SortsBefore(before, a, b)
    ensures !SortsBefore(before, b, a)
  {
  }

  lemma SortsBeforeNegativelyTransitive(before: (string, string) -> bool, a: Lecture, b: Lecture, c: Lecture)
    requires StrictTotalOrder(before)
    requires !SortsBefore(before, a, b) && !SortsBefore(before, b, c)
    ensures !SortsBefore(before, a, c)
  {
  }

  /** One step of a stable insertion sort: `x` goes in front of the first
      element that does not sort strictly before it. */
  function Insert(before: (string, string) -> bool, x: Lecture, s: seq<Lecture>): (r: seq<Lecture>)
    ensures multiset(r) == multiset(s) + multiset{x}
    ensures |r| == |s| + 1
    decreases |s|
  {
    if s == [] || !SortsBefore(before, s[0], x) then [x] + s
    else
      assert s == [s[0]] + s[1..];
      [s[0]] + Insert(before, x, s[1..])
  }

  lemma {:induction false} InsertSorted(before: (string, string) -> bool, x: Lecture, s: seq<Lecture>)
    requires StrictTotalOrder(before)
    requires SortedBy(before, s)
    ensures SortedBy(before, Insert(before, x, s))
    decreases |s|
  {
    var r := Insert(before, x, s);
    if s == [] {
    } else if !SortsBefore(before, s[0], x) {
      forall j | 0 <= j < |s| ensures !SortsBefore(before, s[j], x) {
        if j > 0 { SortsBeforeNegativelyTransitive(before, s[j], s[0], x); }
      }
    } else {
      InsertSorted(before, x, s[1..]);
      var t := Insert(before, x, s[1..]);
      SortsBeforeAsymmetric(before, s[0], x);
      InsertAfterHead(before, x, s);
      ConsSorted(before, s[0], t);
    }
  }

  /** What goes after the head of a sorted list does not sort before it. */
  lemma InsertAfterHead(before: (string, string) -> bool, x: Lecture, s: seq<Lecture>)
    requires s != [] && SortedBy(before, s) && !SortsBefore(before, x, s[0])
    ensures forall y :: y in Insert(before, x, s[1..]) ==> !SortsBefore(before, y, s[0])
  {
    var t := Insert(before, x, s[1..]);
    forall y | y in t ensures !SortsBefore(before, y, s[0]) {
      assert y in multiset(t);
      if y != x {
        assert y in multiset(s[1..]);
        var k :| 0 <= k < |s[1..]| && s[1..][k] == y;
        assert s[k + 1] == y;
      }
    }
  }

  lemma ConsSorted(before: (string, string) -> bool, h: Lecture, t: seq<Lecture>)
    requires SortedBy(before, t)
    requires forall y :: y in t ==> !SortsBefore(before, y, h)
    ensures SortedBy(before, [h] + t)
  {
    var r := [h] + t;
    forall i, j | 0 <= i < j < |r| ensures !SortsBefore(before, r[j], r[i]) {
      assert r[j] == t[j - 1];
      if i > 0 {
        assert r[i] == t[i - 1];
      }
    }
  }

  /** `Array.prototype.sort` with the three-key comparator, as a stable insertion sort. */
  function SortLectures(before: (string, string) -> bool, s: seq<Lecture>): (r: seq<Lecture>)
    ensures multiset(r) == multiset(s)
    ensures |r| == |s|
    decreases |s|
  {
    if s == [] then []
    else
      assert s == [s[0]] + s[1..];
      Insert(before, s[0], SortLectures(before, s[1..]))
  }

  lemma {:induction false} SortLecturesSorted(before: (string, string) -> bool, s: seq<Lecture>)
    requires StrictTotalOrder(before)
    ensures SortedBy(before, SortLectures(before, s))
    decreases |s|
  {
    if s != [] {
      SortLecturesSorted(before, s[1..]);
      InsertSorted(before, s[0], SortLectures(before, s[1..]));
    }
  }

  /** mergeMissingSeed: normalise the stored lectures, add the seeds whose id
      and key are both new, and sort. */
  function MergeMissingSeed(lectures: seq<RawLecture>, seed: seq<RawLecture>, now: nat,
                            before: (string, string) -> bool): (r: seq<Lecture>)
    ensures var normalized := NormalizeAll(lectures, now);
            var added := AddMissing(NormalizeAll(seed, now), IdsOf(normalized), KeysOf(normalized));
            && multiset(r) == multiset(normalized + added)
            && (forall l :: l in normalized ==> l in r)
            && (forall i :: 0 <= i < |added| ==> added[i].id !in IdsOf(normalized) && KeyOf(added[i]) !in KeysOf(normalized))
  {
    var normalized := NormalizeAll(lectures, now);
    var added := AddMissing(NormalizeAll(seed, now), IdsOf(normalized), KeysOf(normalized));
    var r := SortLectures(before, normalized + added);
    SameElementsKeepsMembers(r, normalized, added);
    r
  }

  lemma SameElementsKeepsMembers(r: seq<Lecture>, a: seq<Lecture>, b: seq<Lecture>)
    requires multiset(r) == multiset(a + b)
    ensures forall l :: l in a ==> l in r
  {
    forall l | l in a ensures l in r {
      assert l in a + b;
      assert l in multiset(a + b);
    }
  }

  /** The merged list is sorted by collection, topic and session number. */
  lemma MergeMissingSeedSorted(lectures: seq<RawLecture>, seed: seq<RawLecture>, now: nat,
                               before: (string, string) -> bool)
    requires StrictTotalOrder(before)
    ensures SortedBy(before, MergeMissingSeed(lectures, seed, now, before))
  {
    var normalized := NormalizeAll(lectures, now);
    var added := AddMissing(NormalizeAll(seed, now), IdsOf(normalized), KeysOf(normalized));
    SortLecturesSorted(before, normalized + added);
  }

  /** The result of addLecture: the new list and the lecture that was added. */
  datatype Added = Added(lectures: seq<Lecture>, added: Lecture)

  /** addLecture: `{id: "lec-<now>", ...lecture}` normalised at position
      `|lectures|` and put at the front. */
  function AddLecture(lectures: seq<Lecture>, lecture: RawLecture, now: nat): (r: Added)
    ensures |r.lectures| == |lectures| + 1
    ensures r.lectures[0] == r.added && r.lectures[1..] == lectures
    ensures Normalized(r.added)
    ensures Truthy(lecture.id) ==> r.added.id == lecture.id.value
    ensures lecture.id.None? ==> r.added.id == "lec-" + NatToString(now)
    ensures lecture.id == Some("") ==> r.added.id == GeneratedId(now, |lectures|)
  {
    var withId := if lecture.id.Some? then lecture else lecture.(id := Some("lec-" + NatToString(now)));
    var next := NormalizeLecture(withId, |lectures|, now);
    Added([next] + lectures, next)
  }

  /** Position `k` holds the first lecture with that id. */
  predicate IsFirstWithId(lectures: seq<Lecture>, k: int, id: string) {
    && 0 <= k < |lectures| && lectures[k].id == id
    && forall j :: 0 <= j < k ==> lectures[j].id != id
  }

  /** getLectureById: the first lecture with that id, or nothing. */
  function GetLectureById(lectures: seq<Lecture>, id: string): (r: Option<Lecture>)
    ensures r.None? <==> forall i :: 0 <= i < |lectures| ==> lectures[i].id != id
    ensures r.Some? ==> exists k :: IsFirstWithId(lectures, k, id) && lectures[k] == r.value
    decreases |lectures|
  {
    if lectures == [] then None
    else if lectures[0].id == id then
      assert IsFirstWithId(lectures, 0, id);
      Some(lectures[0])
    else
      var r := GetLectureById(lectures[1..], id);
      assert r.None? ==> forall i :: 0 <= i < |lectures| ==> lectures[i].id != id by {
        if r.None? {
          forall i | 0 <= i < |lectures| ensures lectures[i].id != id {
            if i > 0 { assert lectures[i] == lectures[1..][i - 1]; }
          }
        }
      }
      assert r.Some? ==> exists k :: IsFirstWithId(lectures, k, id) && lectures[k] == r.value by {
        if r.Some? {
          var k :| IsFirstWithId(lectures[1..], k, id) && lectures[1..][k] == r.value;
          assert lectures[k + 1] == r.value;
          forall j | 0 <= j < k + 1 ensures lectures[j].id != id {
            if j > 0 { assert lectures[j] == lectures[1..][j - 1]; }
          }
          assert IsFirstWithId(lectures, k + 1, id);
        }
      }
      r
  }

  /** removeLecture: drops every lecture with that id and keeps the rest in order. */
  function RemoveLecture(lectures: seq<Lecture>, id: string): (r: seq<Lecture>)
    ensures forall i :: 0 <= i < |r| ==> r[i].id != id
    ensures IsSubseq(r, lectures)
    ensures forall l: Lecture :: l.id != id ==> multiset(r)[l] == multiset(lectures)[l]
  {
    FilterMultiset((l: Lecture) => l.id != id, lectures);
    Filter((l: Lecture) => l.id != id, lectures)
  }

  /** In the list addLecture returns, a lookup of the new lecture's id finds
      it. The store's own getLectureById reads the list again through
      mergeMissingSeed, which sorts it. */
  lemma AddedIsFound(lectures: seq<Lecture>, lecture: RawLecture, now: nat)
    ensures var a := AddLecture(lectures, lecture, now);
            GetLectureById(a.lectures, a.added.id) == Some(a.added)
  {
  }

  /** Removing a lecture just added removes it along with any older lecture
      of the same id, and leaves the rest as it was. */
  lemma RemoveUndoesAdd(lectures: seq<Lecture>, lecture: RawLecture, now: nat)
    ensures var a := AddLecture(lectures, lecture, now);
            RemoveLecture(a.lectures, a.added.id) == RemoveLecture(lectures, a.added.id)
  {
    var a := AddLecture(lectures, lecture, now);
    assert a.lectures == [a.added] + lectures;
  }

  /** In the list removeLecture returns, the id is no longer found. The
      store's next read merges the seeds in again: see RemovedSeedReturns. */
  lemma RemovedIsNotFound(lectures: seq<Lecture>, id: string)
    ensures GetLectureById(RemoveLecture(lectures, id), id).None?
  {
  }

  /** Each stored lecture, read back from storage, is normalised to itself. */
  lemma NormalizeAllOfStored(ls: seq<Lecture>, now: nat)
    requires forall i :: 0 <= i < |ls| ==> Normalized(ls[i])
    ensures NormalizeAll(Map(ToRaw, ls), now) == ls
  {
    forall i | 0 <= i < |ls| ensures NormalizeAll(Map(ToRaw, ls), now)[i] == ls[i] {
      NormalizeLectureFixesNormalized(ls[i], i, now);
    }
  }

  /** A first seed whose id and key are both free is added, and no other
      added seed shares its id. */
  lemma AddMissingFreshHead(seeds: seq<Lecture>, ids: set<string>, keys: set<SeedKey>)
    requires seeds != [] && seeds[0].id !in ids && KeyOf(seeds[0]) !in keys
    ensures var added := AddMissing(seeds, ids, keys);
            added != [] && added[0] == seeds[0]
            && forall j :: 0 < j < |added| ==> added[j].id != seeds[0].id
  {
    var added := AddMissing(seeds, ids, keys);
    assert added[0] == seeds[0];
    forall j | 0 < j < |added| ensures added[j].id != seeds[0].id {
      assert added[0].id != added[j].id;
    }
  }

  /** Removal does not outlast the next read for a seed lecture: after
      removeLecture drops the id of the first seed, the next getLectures
      merges that seed in again, unless another stored lecture holds its
      collection, topic and session number, so getLectureById finds it. */
  lemma RemovedSeedReturns(lectures: seq<Lecture>, seed: seq<RawLecture>, now: nat,
                           before: (string, string) -> bool)
    requires seed != []
    requires forall i :: 0 <= i < |lectures| ==> Normalized(lectures[i])
    requires forall i :: 0 <= i < |lectures| ==>
      lectures[i].id == NormalizeLecture(seed[0], 0, now).id || KeyOf(lectures[i]) != KeyOf(NormalizeLecture(seed[0], 0, now))
    ensures var s := NormalizeLecture(seed[0], 0, now);
            GetLectureById(MergeMissingSeed(Map(ToRaw, RemoveLecture(lectures, s.id)), seed, now, before), s.id) == Some(s)
  {
    var s := NormalizeLecture(seed[0], 0, now);
    var kept := RemoveLecture(lectures, s.id);
    var merged := MergeMissingSeed(Map(ToRaw, kept), seed, now, before);
    forall i | 0 <= i < |kept| ensures Normalized(kept[i]) && kept[i].id != s.id && KeyOf(kept[i]) != KeyOf(s) {
      SubseqMembers(kept, lectures, kept[i]);
    }
    NormalizeAllOfStored(kept, now);
    var seeds := NormalizeAll(seed, now);
    assert seeds[0] == s;
    assert s.id !in IdsOf(kept) && KeyOf(s) !in KeysOf(kept);
    AddMissingFreshHead(seeds, IdsOf(kept), KeysOf(kept));
    var added := AddMissing(seeds, IdsOf(kept), KeysOf(kept));
    OnlySeedHasId(merged, kept, added, s);
  }

  lemma OnlySeedHasId(merged: seq<Lecture>, kept: seq<Lecture>, added: seq<Lecture>, s: Lecture)
    requires multiset(merged) == multiset(kept + added)
    requires forall i :: 0 <= i < |kept| ==> kept[i].id != s.id
    requires added != [] && added[0] == s
    requires forall j :: 0 < j < |added| ==> added[j].id != s.id
    ensures GetLectureById(merged, s.id) == Some(s)
  {
    assert s in multiset(kept + added);
    assert s in merged;
    var r := GetLectureById(merged, s.id);
    var k :| IsFirstWithId(merged, k, s.id) && merged[k] == r.value;
    assert merged[k] in multiset(kept + added);
    assert merged[k] in kept + added;
  }
}

=== FILE: listing.dfy ===
/** The lecture listing page (app.js): filter options, search, and the
    paginated list, as a state that each event handler changes and each
    render repairs. The DOM is left out: a render returns the state it
    leaves behind and what it would show. */
module Listing {
  import opened Seqs
  import opened Text
  import LectureStore

  type Lecture = LectureStore.Lecture

  /** Lectures per page. */
  const PerPage: nat := 12
  /** The option value that selects every collection or topic. */
  const All: string := "all"
  /** How much of a lecture's text a card shows. */
  const PreviewLength: nat := 160

  /** The distinct non-empty strings of `values` not in `seen`, each at its
      first occurrence. */
  function Distinct(values: seq<string>, seen: set<string>): (r: seq<string>)
    ensures forall k :: 0 <= k < |r| ==> r[k] != "" && r[k] !in seen && r[k] in values
    ensures forall x :: x in values && x != "" && x !in seen ==> x in r
    decreases |values|
  {
    if values == [] then []
    else if values[0] == "" || values[0] in seen then Distinct(values[1..], seen)
    else [values[0]] + Distinct(values[1..], seen + {values[0]})
  }

  lemma {:induction false} DistinctNoRepeats(values: seq<string>, seen: set<string>)
    ensures forall a, b :: 0 <= a < b < |Distinct(values, seen)| ==> Distinct(values, seen)[a] != Distinct(values, seen)[b]
    decreases |values|
  {
    if values != [] {
      DistinctNoRepeats(values[1..], seen + {values[0]});
      DistinctNoRepeats(values[1..], seen);
    }
  }

  /** The strings of `r` appear in `values` in this order: each is found
      earlier than the next. */
  predicate InFirstOccurrenceOrder(values: seq<string>, r: seq<string>) {
    forall a, b :: 0 <= a < b < |r| ==> IndexOf(values, r[a]) < IndexOf(values, r[b])
  }

  /** Values come out in the order of their first occurrence. */
  lemma {:induction false} DistinctFirstOccurrence(values: seq<string>, seen: set<string>)
    ensures InFirstOccurrenceOrder(values, Distinct(values, seen))
    decreases |values|
  {
    if values != [] {
      var v := values[0];
      var tail := values[1..];
      if v == "" || v in seen {
        DistinctFirstOccurrence(tail, seen);
        IndexOfPastHead(values, Distinct(tail, seen));
        PastHeadOrder(values, Distinct(tail, seen));
      } else {
        var rest := Distinct(tail, seen + {v});
        DistinctFirstOccurrence(tail, seen + {v});
        IndexOfPastHead(values, rest);
        HeadFirst(values, rest);
      }
    }
  }

  /** Strings other than the head are found one place later than in the tail. */
  lemma IndexOfPastHead(values: seq<string>, xs: seq<string>)
    requires values != []
    requires forall k :: 0 <= k < |xs| ==> xs[k] != values[0]
    ensures forall k :: 0 <= k < |xs| ==> IndexOf(values, xs[k]) == 1 + IndexOf(values[1..], xs[k])
  {
  }

  lemma PastHeadOrder(values: seq<string>, xs: seq<string>)
    requires values != []
    requires forall k :: 0 <= k < |xs| ==> IndexOf(values, xs[k]) == 1 + IndexOf(values[1..], xs[k])
    requires InFirstOccurrenceOrder(values[1..], xs)
    ensures InFirstOccurrenceOrder(values, xs)
  {
  }

  lemma HeadFirst(values: seq<string>, rest: seq<string>)
    requires values != []
    requires forall k :: 0 <= k < |rest| ==> IndexOf(values, rest[k]) == 1 + IndexOf(values[1..], rest[k])
    requires InFirstOccurrenceOrder(values[1..], rest)
    ensures InFirstOccurrenceOrder(values, [values[0]] + rest)
  {
    var r := [values[0]] + rest;
    forall a, b | 0 <= a < b < |r| ensures IndexOf(values, r[a]) < IndexOf(values, r[b]) {
      HeadFirstPair(values, rest, a, b);
    }
  }

  lemma HeadFirstPair(values: seq<string>, rest: seq<string>, a: nat, b: nat)
    requires values != []
    requires forall k :: 0 <= k < |rest| ==> IndexOf(values, rest[k]) == 1 + IndexOf(values[1..], rest[k])
    requires InFirstOccurrenceOrder(values[1..], rest)
    requires a < b <= |rest|
    ensures IndexOf(values, ([values[0]] + rest)[a]) < IndexOf(values, ([values[0]] + rest)[b])
  {
    var r := [values[0]] + rest;
    var y := rest[b - 1];
    assert r[b] == y;
    assert IndexOf(values, y) >= 1;
    if a == 0 {
      assert r[a] == values[0];
      assert IndexOf(values, values[0]) == 0;
    } else {
      var x := rest[a - 1];
      assert r[a] == x;
      assert IndexOf(values[1..], x) < IndexOf(values[1..], y);
    }
  }

  /** getUniqueValues: the distinct truthy values of `key` over `items`, in
      first-occurrence order. */
  function UniqueValues(items: seq<Lecture>, key: Lecture -> string): (r: seq<string>)
    ensures forall x :: x in r <==> x != "" && exists i :: 0 <= i < |items| && key(items[i]) == x
  {
    var values := Map(key, items);
    var r := Distinct(values, {});
    assert forall x :: x in values <==> exists i :: 0 <= i < |items| && key(items[i]) == x by {
      forall x | x in values ensures exists i :: 0 <= i < |items| && key(items[i]) == x {
        var i :| 0 <= i < |values| && values[i] == x;
      }
      forall x | exists i :: 0 <= i < |items| && key(items[i]) == x ensures x in values {
        var i :| 0 <= i < |items| && key(items[i]) == x;
        assert values[i] == x;
      }
    }
    r
  }

  /** The unique values have no duplicates and keep first-occurrence order. */
  lemma UniqueValuesOrder(items: seq<Lecture>, key: Lecture -> string)
    ensures forall a, b :: 0 <= a < b < |UniqueValues(items, key)| ==>
      && UniqueValues(items, key)[a] != UniqueValues(items, key)[b]
      && IndexOf(Map(key, items), UniqueValues(items, key)[a]) < IndexOf(Map(key, items), UniqueValues(items, key)[b])
  {
    DistinctNoRepeats(Map(key, items), {});
    DistinctFirstOccurrence(Map(key, items), {});
  }

  /** previewText: the text, or its first `maxLength` characters and `...`. */
  function PreviewText(text: string, maxLength: nat): (r: string)
    ensures |r| <= maxLength + 3
    ensures |text| <= maxLength ==> r == text
    ensures |text| > maxLength ==> |r| == maxLength + 3 && text[..maxLength] <= r && r[maxLength..] == "..."
  {
    if |text| <= maxLength then text else text[..maxLength] + "..."
  }

  /** A preview always begins with the text or with its first `maxLength` characters. */
  lemma PreviewTextPrefix(text: string, maxLength: nat)
    ensures (if |text| <= maxLength then text else text[..maxLength]) <= PreviewText(text, maxLength)
  {
  }

  /** The filter and page selection of the page (`state`). */
  datatype State = State(collection: string, topic: string, search: string, page: int)

  /** The part of the state that decides which lectures are listed, with
      the search string as compared: trimmed, then lower-cased, once per
      filtering. */
  datatype Query = Query(collection: string, topic: string, needle: string)

  function QueryOf(st: State, lower: string -> string): Query {
    Query(st.collection, st.topic, lower(Trim(st.search)))
  }

  const Initial: State := State(All, All, "", 1)

  /** The filter test of filterLectures. */
  predicate Matches(l: Lecture, q: Query, lower: string -> string) {
    && (q.collection == All || l.collection == q.collection)
    && (q.topic == All || l.topic == q.topic)
    && (|q.needle| == 0 || Contains(lower(l.title), q.needle) || Contains(lower(l.text), q.needle))
  }

  /** filterLectures: the lectures that match, in list order. */
  function FilterLectures(lectures: seq<Lecture>, q: Query, lower: string -> string): (r: seq<Lecture>)
    ensures IsSubseq(r, lectures)
  {
    Filter((l: Lecture) => Matches(l, q, lower), lectures)
  }

  /** A lecture is listed exactly when it is in the list and matches. */
  lemma FilterLecturesMembers(lectures: seq<Lecture>, q: Query, lower: string -> string)
    ensures forall l :: l in FilterLectures(lectures, q, lower) <==> l in lectures && Matches(l, q, lower)
  {
    forall l ensures l in FilterLectures(lectures, q, lower) <==> l in lectures && Matches(l, q, lower) {
      FilterMembership((l: Lecture) => Matches(l, q, lower), lectures, l);
    }
  }

  /** With every collection, every topic and a blank search nothing is filtered out. */
  lemma FilterAllKeepsEverything(lectures: seq<Lecture>, st: State, lower: string -> string)
    requires st.collection == All && st.topic == All && AllSpace(st.search)
    requires lower("") == ""
    ensures FilterLectures(lectures, QueryOf(st, lower), lower) == lectures
  {
    assert Trim(st.search) == [];
    var q := QueryOf(st, lower);
    FilterAll((l: Lecture) => Matches(l, q, lower), lectures);
  }

  /** The topics offered for the selected collection. */
  function TopicsOf(lectures: seq<Lecture>, collection: string): seq<string> {
    UniqueValues(InCollection(lectures, collection), (l: Lecture) => l.topic)
  }

  /** The lectures of the selected collection, or all of them. */
  function InCollection(lectures: seq<Lecture>, collection: string): seq<Lecture> {
    if collection == All then lectures
    else Filter((l: Lecture) => l.collection == collection, lectures)
  }

  /** renderFilters: a topic not offered for the selected collection falls back to `all`. */
  function RenderFilters(lectures: seq<Lecture>, st: State): (r: State)
    ensures r.topic == All || r.topic in TopicsOf(lectures, st.collection)
    ensures st.topic in TopicsOf(lectures, st.collection) ==> r == st
    ensures st.topic !in TopicsOf(lectures, st.collection) ==> r.topic == All
    ensures r == st.(topic := r.topic)
  {
    if st.topic in TopicsOf(lectures, st.collection) then st else st.(topic := All)
  }

  /** A topic stays selected exactly when some lecture of the selected
      collection has it. */
  lemma RenderFiltersKeepsTopic(lectures: seq<Lecture>, st: State)
    requires st.topic != All
    ensures RenderFilters(lectures, st).topic == st.topic
        <==> st.topic != "" && exists l :: l in lectures && l.topic == st.topic && (st.collection == All || l.collection == st.collection)
  {
    if st.topic in TopicsOf(lectures, st.collection) {
      OfferedTopicHasLecture(lectures, st.collection, st.topic);
    } else if exists l :: l in lectures && l.topic == st.topic && (st.collection == All || l.collection == st.collection) {
      var l :| l in lectures && l.topic == st.topic && (st.collection == All || l.collection == st.collection);
      if st.topic != "" {
        LectureTopicOffered(lectures, st.collection, l);
      }
    }
  }

  lemma OfferedTopicHasLecture(lectures: seq<Lecture>, collection: string, topic: string)
    requires topic in TopicsOf(lectures, collection)
    ensures topic != ""
    ensures exists l :: l in lectures && l.topic == topic && (collection == All || l.collection == collection)
  {
    var inCollection := InCollection(lectures, collection);
    var key := (l: Lecture) => l.topic;
    assert topic in UniqueValues(inCollection, key);
    var i :| 0 <= i < |inCollection| && key(inCollection[i]) == topic;
    var l := inCollection[i];
    InCollectionMembers(lectures, collection);
    assert l in inCollection;
  }

  lemma LectureTopicOffered(lectures: seq<Lecture>, collection: string, l: Lecture)
    requires l in lectures && l.topic != "" && (collection == All || l.collection == collection)
    ensures l.topic in TopicsOf(lectures, collection)
  {
    var inCollection := InCollection(lectures, collection);
    var key := (l: Lecture) => l.topic;
    InCollectionMembers(lectures, collection);
    assert l in inCollection;
    var i :| 0 <= i < |inCollection| && inCollection[i] == l;
    assert key(inCollection[i]) == l.topic;
    assert l.topic in UniqueValues(inCollection, key);
  }

  lemma InCollectionMembers(lectures: seq<Lecture>, collection: string)
    ensures forall l :: l in InCollection(lectures, collection) <==> l in lectures && (collection == All || l.collection == collection)
  {
    var p := (l: Lecture) => l.collection == collection;
    forall l ensures l in InCollection(lectures, collection) <==> l in lectures && (collection == All || l.collection == collection) {
      if collection != All {
        FilterMembership(p, lectures, l);
      }
    }
  }

  /** `Math.max(1, Math.ceil(n / PER_PAGE))`: one page per started dozen,
      and one page for an empty list. */
  function TotalPages(n: nat): (t: nat)
    ensures t >= 1
    ensures n <= t * PerPage
    ensures t == 1 || (t - 1) * PerPage < n
    decreases n
  {
    if n <= PerPage then 1 else 1 + TotalPages(n - PerPage)
  }

  /** `Array.prototype.slice(start, end)`, negative bounds counting from the end. */
  function JsSlice<T>(s: seq<T>, start: int, end: int): (r: seq<T>)
    ensures 0 <= start <= end ==> r == s[Min(start, |s|)..Min(end, |s|)]
  {
    var n := |s|;
    var b := if start < 0 then Max(n + start, 0) else Min(start, n);
    var e := if end < 0 then Max(n + end, 0) else Min(end, n);
    if b < e then s[b..e] else []
  }

  function Min(a: int, b: int): int {
    if a < b then a else b
  }

  function Max(a: int, b: int): int {
    if a < b then b else a
  }

  /** The lectures on page `page` (1-based). */
  function PageItems(filtered: seq<Lecture>, page: int): seq<Lecture> {
    var start := (page - 1) * PerPage;
    JsSlice(filtered, start, start + PerPage)
  }

  /** What a render shows. */
  datatype View = View(
    items: seq<Lecture>,
    found: nat,
    page: int,
    totalPages: nat,
    prevDisabled: bool,
    nextDisabled: bool)

  /** renderLectures, the state it leaves: repair the topic, then clamp the
      page down to the last page of the filtered list. */
  function Render(lectures: seq<Lecture>, st: State, lower: string -> string): (r: State)
    ensures r == RenderFilters(lectures, st).(page := r.page)
    ensures r.page == Min(st.page, TotalPages(|FilterLectures(lectures, QueryOf(r, lower), lower)|))
  {
    var st1 := RenderFilters(lectures, st);
    var total := TotalPages(|FilterLectures(lectures, QueryOf(st1, lower), lower)|);
    st1.(page := Min(st1.page, total))
  }

  /** renderLectures, what it shows for the state it leaves: the page's
      slice of the filtered list, the count, and the pager. */
  function Show(lectures: seq<Lecture>, st: State, lower: string -> string): View {
    var filtered := FilterLectures(lectures, QueryOf(st, lower), lower);
    var total := TotalPages(|filtered|);
    View(PageItems(filtered, st.page), |filtered|, st.page, total, st.page == 1, st.page == total)
  }

  /** The page is one of the pages that exist for the current filter. */
  ghost predicate PageInRange(lectures: seq<Lecture>, st: State, lower: string -> string) {
    1 <= st.page <= TotalPages(|FilterLectures(lectures, QueryOf(st, lower), lower)|)
  }

  /** A render from a page of at least 1 leaves the page in range. */
  lemma RenderKeepsPageInRange(lectures: seq<Lecture>, st: State, lower: string -> string)
    requires st.page >= 1
    ensures PageInRange(lectures, Render(lectures, st, lower), lower)
  {
  }

  /** For a page that exists (as every render leaves it, see
      RenderKeepsPageInRange), the items shown are the page's slice of the
      filtered list, at most 12, and the previous and next buttons are
      disabled exactly on the first and the last page. */
  lemma ShowsPage(lectures: seq<Lecture>, st: State, lower: string -> string)
    requires PageInRange(lectures, st, lower)
    ensures var v := Show(lectures, st, lower);
      var filtered := FilterLectures(lectures, QueryOf(st, lower), lower);
      && v.found == |filtered|
      && v.totalPages == TotalPages(|filtered|)
      && |v.items| <= PerPage
      && v.items == filtered[(st.page - 1) * PerPage..Min(st.page * PerPage, |filtered|)]
      && (v.prevDisabled <==> st.page == 1)
      && (v.nextDisabled <==> st.page == v.totalPages)
  {
    var filtered := FilterLectures(lectures, QueryOf(st, lower), lower);
    PageSlice(filtered, st.page);
  }

  /** An existing page is a slice of at most 12 lectures. */
  lemma PageSlice(filtered: seq<Lecture>, page: int)
    requires 1 <= page <= TotalPages(|filtered|)
    ensures (page - 1) * PerPage <= Min(page * PerPage, |filtered|)
    ensures PageItems(filtered, page) == filtered[(page - 1) * PerPage..Min(page * PerPage, |filtered|)]
    ensures |PageItems(filtered, page)| <= PerPage
  {
    var start := (page - 1) * PerPage;
    assert start <= |filtered| by {
      if |filtered| > 0 {
        assert (TotalPages(|filtered|) - 1) * PerPage < |filtered|;
        assert start <= (TotalPages(|filtered|) - 1) * PerPage;
      }
    }
  }

  /** The page handlers. */
  datatype Event =
    | CollectionChanged(collection: string)
    | TopicChanged(topic: string)
    | SearchInput(search: string)
    | PrevPage
    | NextPage

  /** What a handler changes before it renders: a new collection, topic or
      search starts again from page 1; the pager moves one page and keeps
      the filters. */
  function Handle(st: State, e: Event): (r: State)
    ensures e.PrevPage? || e.NextPage? ==> r == st.(page := r.page)
    ensures e.PrevPage? ==> r.page == st.page - 1
    ensures e.NextPage? ==> r.page == st.page + 1
    ensures !(e.PrevPage? || e.NextPage?) ==> r.page == 1
    ensures e.CollectionChanged? ==> r.collection == e.collection && r.topic == st.topic && r.search == st.search
    ensures e.TopicChanged? ==> r.topic == e.topic && r.collection == st.collection && r.search == st.search
    ensures e.SearchInput? ==> r.search == e.search && r.collection == st.collection && r.topic == st.topic
  {
    match e
    case CollectionChanged(c) => st.(collection := c, page := 1)
    case TopicChanged(t) => st.(topic := t, page := 1)
    case SearchInput(s) => st.(search := s, page := 1)
    case PrevPage => st.(page := st.page - 1)
    case NextPage => st.(page := st.page + 1)
  }

  /** One handler: change the state, then render. The previous-page button
      does nothing at all on page 1. */
  function Step(lectures: seq<Lecture>, st: State, e: Event, lower: string -> string): (r: State)
    ensures e.PrevPage? && st.page <= 1 ==> r == st
  {
    if e.PrevPage? && st.page <= 1 then st else Render(lectures, Handle(st, e), lower)
  }

  /** Every handler keeps the page among the pages that exist. */
  lemma StepKeepsPageInRange(lectures: seq<Lecture>, st: State, e: Event, lower: string -> string)
    requires PageInRange(lectures, st, lower)
    ensures PageInRange(lectures, Step(lectures, st, e, lower), lower)
  {
    if !(e.PrevPage? && st.page <= 1) {
      var h := Handle(st, e);
      assert h.page >= 1;
      RenderKeepsPageInRange(lectures, h, lower);
      assert Step(lectures, st, e, lower) == Render(lectures, h, lower);
    }
  }

  /** On the last page, the next-page handler leaves the page where it is:
      its render clamps the page back down. */
  lemma NextOnLastPageStays(lectures: seq<Lecture>, st: State, lower: string -> string)
    requires PageInRange(lectures, st, lower)
    requires RenderFilters(lectures, st) == st
    requires st.page == TotalPages(|FilterLectures(lectures, QueryOf(st, lower), lower)|)
    ensures Render(lectures, st.(page := st.page + 1), lower) == st
  {
    RenderFiltersIgnoresPage(lectures, st, st.page + 1);
    assert QueryOf(st.(page := st.page + 1), lower) == QueryOf(st, lower);
  }

  /** The page does not take part in repairing the topic. */
  lemma RenderFiltersIgnoresPage(lectures: seq<Lecture>, st: State, page: int)
    ensures RenderFilters(lectures, st.(page := page)) == RenderFilters(lectures, st).(page := page)
  {
  }

  /** The page after the first render, then after each event in turn. */
  function Run(lectures: seq<Lecture>, events: seq<Event>, lower: string -> string): State
    decreases |events|
  {
    if events == [] then Render(lectures, Initial, lower)
    else Step(lectures, Run(lectures, events[..|events| - 1], lower), events[|events| - 1], lower)
  }

  /** Whatever the user does, the page shown exists. */
  lemma {:induction false} RunKeepsPageInRange(lectures: seq<Lecture>, events: seq<Event>, lower: string -> string)
    ensures PageInRange(lectures, Run(lectures, events, lower), lower)
    decreases |events|
  {
    if events == [] {
      RenderKeepsPageInRange(lectures, Initial, lower);
    } else {
      RunKeepsPageInRange(lectures, events[..|events| - 1], lower);
      StepKeepsPageInRange(lectures, Run(lectures, events[..|events| - 1], lower), events[|events| - 1], lower);
    }
  }

  /** Pages `from` to `last`, one after another. */
  function PagesFrom(filtered: seq<Lecture>, from: nat, last: nat): seq<Lecture>
    requires 1 <= from
    decreases last + 1 - from
  {
    if from > last then [] else PageItems(filtered, from) + PagesFrom(filtered, from + 1, last)
  }

  lemma {:induction false} PagesFromAreSuffix(filtered: seq<Lecture>, from: nat)
    requires 1 <= from <= TotalPages(|filtered|)
    ensures PagesFrom(filtered, from, TotalPages(|filtered|)) == filtered[Min((from - 1) * PerPage, |filtered|)..]
    decreases TotalPages(|filtered|) + 1 - from
  {
    var total := TotalPages(|filtered|);
    var start := (from - 1) * PerPage;
    PageBounds(|filtered|, from);
    PageSlice(filtered, from);
    if from == total {
      assert PagesFrom(filtered, from + 1, total) == [];
      assert PagesFrom(filtered, from, total) == filtered[start..] + [];
    } else {
      var mid := from * PerPage;
      PagesFromAreSuffix(filtered, from + 1);
      assert PagesFrom(filtered, from, total) == filtered[start..mid] + filtered[mid..];
      assert filtered[start..] == filtered[start..mid] + filtered[mid..];
    }
  }

  /** Every page but the last is full; the last one ends the list. */
  lemma PageBounds(n: nat, page: nat)
    requires 1 <= page <= TotalPages(n)
    ensures (page - 1) * PerPage <= n
    ensures page < TotalPages(n) ==> page * PerPage < n
    ensures page == TotalPages(n) ==> n <= page * PerPage
  {
    var total := TotalPages(n);
    if n > 0 {
      assert (total - 1) * PerPage < n;
      assert (page - 1) * PerPage <= (total - 1) * PerPage;
      if page < total {
        assert page * PerPage <= (total - 1) * PerPage;
      }
    }
  }

  /** Reading every page in turn gives back the filtered list. */
  lemma PagesCoverFiltered(filtered: seq<Lecture>)
    ensures PagesFrom(filtered, 1, TotalPages(|filtered|)) == filtered
  {
    PagesFromAreSuffix(filtered, 1);
  }
}

=== FILE: normalizer.dfy ===
/** Text normalisation and tokenisation of the question-answering
    pipeline (chat.js, lines 5-27). */
module Normalizer {
  import opened Wrappers
  import opened Seqs
  import opened Text

  /** The Unicode facts the normaliser consults: `\p{L}`, `\p{N}` and the
      per-character behaviour of `toLowerCase`. They come from the
      JavaScript engine's Unicode tables and are parameters here. */
  datatype CharClasses = CharClasses(isLetter: char -> bool, isNumber: char -> bool, lower: char -> char)

  const ZeroWidthNonJoiner: char := '\U{200C}'
  const RightToLeftMark: char := '\U{200F}'
  const ArabicYeh: char := '\U{064A}'
  const FarsiYeh: char := '\U{06CC}'
  const ArabicKaf: char := '\U{0643}'
  const FarsiKaf: char := '\U{06A9}'

  /** The Arabic diacritics U+064B to U+065F that normalisation deletes. */
  predicate IsHarakat(c: char) {
    '\U{064B}' <= c <= '\U{065F}'
  }

  /** Matched by `[\p{L}\p{N}]`. */
  predicate IsWordChar(cs: CharClasses, c: char) {
    cs.isLetter(c) || cs.isNumber(c)
  }

  /** What the Unicode tables guarantee for characters whose lower-case
      form is one character chosen without context: letters and numbers
      are never whitespace, diacritics (category Mn) or format controls
      (category Cf); lower-casing keeps letters and numbers inside their
      classes, is idempotent, never produces an Arabic yeh or kaf from
      another character, and leaves the space alone. U+0130, whose
      lower-case form is "i" followed by the mark U+0307, and the final
      sigma fall outside this. */
  ghost predicate Valid(cs: CharClasses) {
    && (forall c :: IsWordChar(cs, c) ==>
          !IsSpace(c) && !IsHarakat(c) && c != ZeroWidthNonJoiner && c != RightToLeftMark)
    && (forall c :: IsWordChar(cs, c) ==>
          IsWordChar(cs, cs.lower(c)) && cs.lower(cs.lower(c)) == cs.lower(c))
    && (forall c :: IsWordChar(cs, c) && c != ArabicYeh && c != ArabicKaf ==>
          cs.lower(c) != ArabicYeh && cs.lower(c) != ArabicKaf)
    && cs.lower(' ') == ' '
  }

  /** The shape of a normalised string: trimmed, single plain spaces only,
      otherwise lower-case letters and digits other than the Arabic yeh and kaf. */
  ghost predicate NormalForm(cs: CharClasses, s: string) {
    && Trimmed(s)
    && Collapsed(s)
    && forall i :: 0 <= i < |s| ==>
         && (s[i] == ' ' || (IsWordChar(cs, s[i]) && s[i] != ArabicYeh && s[i] != ArabicKaf))
         && cs.lower(s[i]) == s[i]
  }

  // The steps of normalizeText, in the source's order.

  function ReplaceDirectionMarks(s: string): (r: string)
    ensures |r| == |s|
    ensures forall i :: 0 <= i < |s| ==>
      r[i] == (if s[i] == ZeroWidthNonJoiner || s[i] == RightToLeftMark then ' ' else s[i])
  {
    Map(c => if c == ZeroWidthNonJoiner || c == RightToLeftMark then ' ' else c, s)
  }

  function FoldArabic(s: string): (r: string)
    ensures |r| == |s|
    ensures forall i :: 0 <= i < |s| ==>
      r[i] == (if s[i] == ArabicYeh then FarsiYeh else if s[i] == ArabicKaf then FarsiKaf else s[i])
  {
    Map(c => if c == ArabicYeh then FarsiYeh else if c == ArabicKaf then FarsiKaf else c, s)
  }

  function StripHarakat(s: string): (r: string)
    ensures |r| <= |s|
    ensures forall i :: 0 <= i < |r| ==> !IsHarakat(r[i]) && r[i] in s
  {
    Filter(c => !IsHarakat(c), s)
  }

  function BlankSymbols(cs: CharClasses, s: string): (r: string)
    ensures |r| == |s|
    ensures forall i :: 0 <= i < |s| ==>
      r[i] == (if IsWordChar(cs, s[i]) || IsSpace(s[i]) then s[i] else ' ')
  {
    Map(c => if IsWordChar(cs, c) || IsSpace(c) then c else ' ', s)
  }

  function LowerCase(cs: CharClasses, s: string): (r: string)
    ensures |r| == |s|
    ensures forall i :: 0 <= i < |s| ==> r[i] == cs.lower(s[i])
  {
    Map(cs.lower, s)
  }

  /** The four character-level steps before whitespace is collapsed. */
  function CleanGlyphs(cs: CharClasses, s: string): (r: string)
    ensures |r| <= |s|
    ensures forall i :: 0 <= i < |r| ==>
      IsSpace(r[i]) || (IsWordChar(cs, r[i]) && r[i] != ArabicYeh && r[i] != ArabicKaf)
  {
    var folded := FoldArabic(ReplaceDirectionMarks(s));
    assert forall c :: c in folded ==> c != ArabicYeh && c != ArabicKaf;
    var stripped := StripHarakat(folded);
    BlankSymbols(cs, stripped)
  }

  /** normalizeText: `null`, `undefined` and `""` all give `""`. */
  function NormalizeText(text: Option<string>, cs: CharClasses): (r: string)
    ensures text.None? ==> r == []
    ensures |r| <= |text.GetOr([])|
  {
    var s := text.GetOr([]);
    LowerCase(cs, Trim(CollapseWhitespace(CleanGlyphs(cs, s))))
  }

  /** A letter or digit other than the Arabic yeh and kaf. */
  predicate Plain(cs: CharClasses, c: char) {
    IsWordChar(cs, c) && c != ArabicYeh && c != ArabicKaf
  }

  /** Every character is a plain space or a `Plain` one. */
  predicate SpacedPlain(cs: CharClasses, s: string) {
    forall i :: 0 <= i < |s| ==> s[i] == ' ' || Plain(cs, s[i])
  }

  lemma CollapsedGlyphs(cs: CharClasses, s: string)
    ensures SpacedPlain(cs, CollapseWhitespace(CleanGlyphs(cs, s)))
  {
    var g := CleanGlyphs(cs, s);
    var c := CollapseWhitespace(g);
    forall i | 0 <= i < |c| ensures c[i] == ' ' || Plain(cs, c[i]) {
      if c[i] != ' ' {
        assert c[i] in g && !IsSpace(c[i]);
      }
    }
  }

  lemma TrimKeepsSpacedPlain(cs: CharClasses, s: string)
    requires SpacedPlain(cs, s)
    ensures SpacedPlain(cs, Trim(s))
  {
    var t := Trim(s);
    forall i | 0 <= i < |t| ensures t[i] == ' ' || Plain(cs, t[i]) {
      assert t[i] in s;
    }
  }

  lemma LowerKeepsShape(cs: CharClasses, t: string)
    requires Valid(cs)
    requires SpacedPlain(cs, t) && Collapsed(t) && Trimmed(t)
    ensures NormalForm(cs, LowerCase(cs, t))
  {
    var r := LowerCase(cs, t);
    forall i | 0 <= i < |r|
      ensures (r[i] == ' ' <==> t[i] == ' ')
      ensures r[i] == ' ' || Plain(cs, r[i])
      ensures cs.lower(r[i]) == r[i]
    {
      if t[i] != ' ' {
        assert IsWordChar(cs, t[i]);
        assert IsWordChar(cs, r[i]);
      }
    }
    assert Collapsed(r) by {
      forall i | 0 <= i < |r| ensures IsSpace(r[i]) ==> r[i] == ' ' {
        if r[i] != ' ' { assert IsWordChar(cs, r[i]); }
      }
    }
    assert Trimmed(r) by {
      if r != [] {
        assert r[0] != ' ' && r[|r| - 1] != ' ';
        assert IsWordChar(cs, r[0]) && IsWordChar(cs, r[|r| - 1]);
      }
    }
  }

  /** The output of normalisation is trimmed, has no two spaces in a row,
      and holds nothing but spaces and lower-case letters and digits other
      than the Arabic yeh and kaf. */
  lemma NormalizeTextShape(text: Option<string>, cs: CharClasses)
    requires Valid(cs)
    ensures NormalForm(cs, NormalizeText(text, cs))
  {
    var g := CleanGlyphs(cs, text.GetOr([]));
    var c := CollapseWhitespace(g);
    CollapsedGlyphs(cs, text.GetOr([]));
    TrimKeepsCollapsed(c);
    TrimKeepsSpacedPlain(cs, c);
    LowerKeepsShape(cs, Trim(c));
  }

  lemma PlainCharIsClean(cs: CharClasses, c: char)
    requires Valid(cs)
    requires c == ' ' || Plain(cs, c)
    ensures c != ArabicYeh && c != ArabicKaf && !IsHarakat(c) && (IsSpace(c) ==> c == ' ')
  {
    if c != ' ' {
      assert IsWordChar(cs, c);
    }
  }

  /** A normal-form string holds no Arabic yeh, Arabic kaf or diacritic,
      and its only whitespace is the plain space. */
  lemma NormalFormIsClean(cs: CharClasses, s: string)
    requires Valid(cs)
    requires NormalForm(cs, s)
    ensures forall c :: c in s ==>
      c != ArabicYeh && c != ArabicKaf && !IsHarakat(c) && (IsSpace(c) ==> c == ' ')
  {
    forall c | c in s
      ensures c != ArabicYeh && c != ArabicKaf && !IsHarakat(c) && (IsSpace(c) ==> c == ' ')
    {
      var i :| 0 <= i < |s| && s[i] == c;
      PlainCharIsClean(cs, c);
    }
  }

  lemma MapIdentity(f: char -> char, s: string)
    requires forall i :: 0 <= i < |s| ==> f(s[i]) == s[i]
    ensures Map(f, s) == s
  {
  }

  lemma GlyphsFixNormalForm(s: string, cs: CharClasses)
    requires Valid(cs)
    requires NormalForm(cs, s)
    ensures CleanGlyphs(cs, s) == s
  {
    forall i | 0 <= i < |s|
      ensures !IsHarakat(s[i]) && s[i] != ZeroWidthNonJoiner && s[i] != RightToLeftMark
      ensures s[i] != ArabicYeh && s[i] != ArabicKaf
      ensures IsWordChar(cs, s[i]) || IsSpace(s[i])
    {
      if s[i] != ' ' { assert IsWordChar(cs, s[i]); }
    }
    assert ReplaceDirectionMarks(s) == s;
    assert FoldArabic(s) == s;
    FilterAll(c => !IsHarakat(c), s);
    assert StripHarakat(s) == s;
    assert BlankSymbols(cs, s) == s;
  }

  /** A string already in normal form is its own normalisation. */
  lemma NormalizeFixesNormalForm(s: string, cs: CharClasses)
    requires Valid(cs)
    requires NormalForm(cs, s)
    ensures NormalizeText(Some(s), cs) == s
  {
    GlyphsFixNormalForm(s, cs);
    CollapseOfCollapsed(s);
    TrimOfTrimmed(s);
    assert LowerCase(cs, s) == s;
  }

  /** Normalisation is idempotent. */
  lemma NormalizeIdempotent(text: Option<string>, cs: CharClasses)
    requires Valid(cs)
    ensures NormalizeText(Some(NormalizeText(text, cs)), cs) == NormalizeText(text, cs)
  {
    NormalizeTextShape(text, cs);
    NormalizeFixesNormalForm(NormalizeText(text, cs), cs);
  }

  /** STOP_WORDS: Farsi function words plus words common to every lecture. */
  const StopWords: set<string> := {
    "و", "در", "به", "از", "که", "را", "با", "این", "آن", "برای", "است", "هست", "شد", "شود",
    "می", "یا", "تا", "هم", "بر", "اگر", "اما", "یک", "چه", "چرا", "چطور", "کدام", "های", "هایش",
    "جلسه", "سخنرانی", "حاج", "آقا", "سعادتفر"
  }

  /** A word survives tokenisation when it is longer than one character
      and is not a stop word. */
  predicate IsTerm(w: string) {
    |w| > 1 && w !in StopWords
  }

  /** The space-separated words of the normalised text. */
  function Words(text: string, cs: CharClasses): seq<string> {
    Split(NormalizeText(Some(text), cs), ' ')
  }

  /** Joining the words with single spaces gives back the normalised text. */
  lemma WordsJoin(text: string, cs: CharClasses)
    ensures Join(Words(text, cs), ' ') == NormalizeText(Some(text), cs)
  {
    JoinSplit(NormalizeText(Some(text), cs), ' ');
  }

  /** tokenize: the words that are terms, in order, duplicates kept. */
  function Tokenize(text: string, cs: CharClasses): (r: seq<string>)
    ensures forall i :: 0 <= i < |r| ==> |r[i]| >= 2 && r[i] !in StopWords && ' ' !in r[i]
    ensures IsSubseq(r, Words(text, cs))
  {
    Filter(IsTerm, Words(text, cs))
  }

  /** Every term of the text is a token as often as it occurs, and nothing else is. */
  lemma TokenizeCounts(text: string, cs: CharClasses)
    ensures forall w :: multiset(Tokenize(text, cs))[w] == if IsTerm(w) then multiset(Words(text, cs))[w] else 0
  {
    FilterMultiset(IsTerm, Words(text, cs));
  }

  /** Under `Valid` tables every token is made of letters and digits. */
  lemma TokensAreWordChars(text: string, cs: CharClasses)
    requires Valid(cs)
    ensures forall i, j :: 0 <= i < |Tokenize(text, cs)| && 0 <= j < |Tokenize(text, cs)[i]| ==>
      IsWordChar(cs, Tokenize(text, cs)[i][j])
  {
    NormalizeTextShape(Some(text), cs);
    var r := Tokenize(text, cs);
    forall i, j | 0 <= i < |r| && 0 <= j < |r[i]| ensures IsWordChar(cs, r[i][j]) {
      TokenCharIsWordChar(text, cs, r[i], j);
    }
  }

  lemma TokenCharIsWordChar(text: string, cs: CharClasses, w: string, j: nat)
    requires NormalForm(cs, NormalizeText(Some(text), cs))
    requires w in Tokenize(text, cs) && j < |w|
    ensures IsWordChar(cs, w[j])
  {
    var n := NormalizeText(Some(text), cs);
    var ws := Words(text, cs);
    assert w in ws;
    var k :| 0 <= k < |ws| && ws[k] == w;
    assert w[j] in n;
    assert w[j] != ' ';
  }

  /** Tokenising normalised text gives the same tokens as tokenising the original. */
  lemma TokenizeOfNormalized(text: string, cs: CharClasses)
    requires Valid(cs)
    ensures Tokenize(NormalizeText(Some(text), cs), cs) == Tokenize(text, cs)
  {
    NormalizeIdempotent(Some(text), cs);
  }
}

=== FILE: retriever.dfy ===
/** Scoring chunks against a question and picking the best ones
    (chat.js, lines 59-92). The chunk index is the one Chunker.BuildChunks
    builds with Normalizer's tokenizer. */
module Retriever {
  import opened Seqs
  import Normalizer
  import Chunker
  import LectureStore

  /** The tokenizer the pipeline indexes with. */
  function Tokenizer(cs: Normalizer.CharClasses): string -> seq<string> {
    p => Normalizer.Tokenize(p, cs)
  }

  /** `ALL_CHUNKS`: the index of the given lectures. */
  function Index(lectures: seq<LectureStore.Lecture>, cs: Normalizer.CharClasses): seq<Chunker.Chunk> {
    Chunker.BuildChunks(lectures, Tokenizer(cs))
  }

  function Max(a: int, b: int): int {
    if a < b then b else a
  }

  /** The number of question tokens, counted with repetition, that occur
      among the chunk's tokens (the `forEach` over `questionTokens` against
      `new Set(chunk.tokens)`). */
  function Overlap(question: seq<string>, tokens: seq<string>): (n: nat)
    ensures n <= |question|
    ensures n == 0 <==> forall i :: 0 <= i < |question| ==> question[i] !in tokens
    ensures n == |question| <==> forall i :: 0 <= i < |question| ==> question[i] in tokens
    decreases |question|
  {
    if question == [] then 0
    else (if question[0] in tokens then 1 else 0) + Overlap(question[1..], tokens)
  }

  /** The overlap of a question is the sum of the overlaps of its parts. */
  lemma {:induction false} OverlapAppend(a: seq<string>, b: seq<string>, tokens: seq<string>)
    ensures Overlap(a + b, tokens) == Overlap(a, tokens) + Overlap(b, tokens)
    decreases |a|
  {
    if a == [] {
      assert a + b == b;
    } else {
      assert (a + b)[0] == a[0];
      assert (a + b)[1..] == a[1..] + b;
      OverlapAppend(a[1..], b, tokens);
    }
  }

  /** Only the set of chunk tokens matters: order and repetition of the
      chunk's tokens do not change the overlap. */
  lemma {:induction false} OverlapUsesTokenSet(question: seq<string>, t1: seq<string>, t2: seq<string>)
    requires forall x :: x in t1 <==> x in t2
    ensures Overlap(question, t1) == Overlap(question, t2)
    decreases |question|
  {
    if question != [] {
      OverlapUsesTokenSet(question[1..], t1, t2);
    }
  }

  /** `overlap / Math.max(questionTokens.length, 1)`. */
  function OverlapRatio(overlap: nat, questionLength: nat): real {
    overlap as real / Max(questionLength, 1) as real
  }

  /** `overlap / Math.max(chunk.tokens.length, 20)`. */
  function DensityBoost(overlap: nat, chunkLength: nat): real {
    overlap as real / Max(chunkLength, 20) as real
  }

  /** scoreChunk: 0 when either token list is empty, otherwise 85% overlap
      ratio plus 15% density. */
  function ScoreChunk(question: seq<string>, tokens: seq<string>): (s: real)
    ensures s >= 0.0
    ensures question == [] || tokens == [] ==> s == 0.0
    ensures s > 0.0 <==> exists i :: 0 <= i < |question| && question[i] in tokens
  {
    if question == [] || tokens == [] then 0.0
    else
      var overlap := Overlap(question, tokens);
      OverlapRatio(overlap, |question|) * 0.85 + DensityBoost(overlap, |tokens|) * 0.15
  }

  /** A question all of whose tokens occur in the chunk scores at least 0.85. */
  lemma FullCoverageScore(question: seq<string>, tokens: seq<string>)
    requires question != []
    requires forall i :: 0 <= i < |question| ==> question[i] in tokens
    ensures ScoreChunk(question, tokens) >= 0.85
  {
    assert question[0] in tokens;
    var overlap := Overlap(question, tokens);
    assert overlap == |question|;
    RatioOfAll(|question|);
    DensityNonNegative(overlap, |tokens|);
  }

  lemma RatioOfAll(n: nat)
    requires n >= 1
    ensures OverlapRatio(n, n) == 1.0
  {
    assert Max(n, 1) == n;
  }

  lemma DensityNonNegative(overlap: nat, chunkLength: nat)
    ensures DensityBoost(overlap, chunkLength) >= 0.0
  {
    assert Max(chunkLength, 20) as real > 0.0;
  }

  /** The distinct elements of a sequence. */
  function Elements(s: seq<string>): set<string> {
    set x | x in s
  }

  lemma {:induction false} SubsetSize(a: set<string>, b: set<string>)
    requires a <= b
    ensures |a| <= |b|
    decreases a
  {
    if a != {} {
      var x :| x in a;
      SubsetSize(a - {x}, b - {x});
    }
  }

  lemma {:induction false} ElementsBound(s: seq<string>)
    ensures |Elements(s)| <= |s|
    decreases |s|
  {
    if s != [] {
      ElementsBound(s[1..]);
      assert Elements(s) == Elements(s[1..]) + {s[0]};
    } else {
      assert Elements(s) == {};
    }
  }

  predicate NoRepeats(s: seq<string>) {
    forall i, j :: 0 <= i < j < |s| ==> s[i] != s[j]
  }

  /** Without repeated question tokens the overlap counts distinct shared tokens. */
  lemma {:induction false} OverlapIsShared(question: seq<string>, tokens: seq<string>)
    requires NoRepeats(question)
    ensures Overlap(question, tokens) == |Elements(question) * Elements(tokens)|
    decreases |question|
  {
    if question == [] {
      assert Elements(question) == {};
    } else {
      var rest := question[1..];
      OverlapIsShared(rest, tokens);
      FirstIsNew(question);
      assert Elements(question) == Elements(rest) + {question[0]};
      SharedCons(Elements(rest), question[0], Elements(tokens));
    }
  }

  lemma FirstIsNew(question: seq<string>)
    requires question != [] && NoRepeats(question)
    ensures question[0] !in Elements(question[1..]) && NoRepeats(question[1..])
  {
    var rest := question[1..];
    forall j | 0 <= j < |rest| ensures rest[j] != question[0] {
      assert rest[j] == question[j + 1];
    }
  }

  lemma SharedCons(rest: set<string>, x: string, tokens: set<string>)
    requires x !in rest
    ensures |(rest + {x}) * tokens| == |rest * tokens| + (if x in tokens then 1 else 0)
  {
    if x in tokens {
      assert (rest + {x}) * tokens == rest * tokens + {x};
    } else {
      assert (rest + {x}) * tokens == rest * tokens;
    }
  }

  lemma RatioAtMostOne(overlap: nat, questionLength: nat)
    requires overlap <= questionLength
    ensures OverlapRatio(overlap, questionLength) <= 1.0
  {
    var d := Max(questionLength, 1) as real;
    assert overlap as real <= d;
  }

  lemma DensityAtMostOne(overlap: nat, chunkLength: nat)
    requires overlap <= chunkLength
    ensures DensityBoost(overlap, chunkLength) <= 1.0
  {
    var d := Max(chunkLength, 20) as real;
    assert overlap as real <= d;
  }

  /** A question that repeats no token scores at most 1: the overlap cannot
      exceed the number of chunk tokens. */
  lemma ScoreAtMostOne(question: seq<string>, tokens: seq<string>)
    requires NoRepeats(question)
    ensures ScoreChunk(question, tokens) <= 1.0
  {
    if question != [] && tokens != [] {
      var overlap := Overlap(question, tokens);
      OverlapIsShared(question, tokens);
      ElementsBound(tokens);
      SubsetSize(Elements(question) * Elements(tokens), Elements(tokens));
      RatioAtMostOne(overlap, |question|);
      DensityAtMostOne(overlap, |tokens|);
    }
  }

  /** A chunk together with its score. */
  datatype Hit = Hit(chunk: Chunker.Chunk, score: real)

  /** The score of every chunk of the index, position by position. */
  function Scores(index: seq<Chunker.Chunk>, question: seq<string>): (r: seq<real>)
    ensures |r| == |index|
    ensures forall i :: 0 <= i < |r| ==> r[i] == ScoreChunk(question, index[i].tokens)
  {
    seq(|index|, i requires 0 <= i < |index| => ScoreChunk(question, index[i].tokens))
  }

  /** The positions from `from` on whose score is positive, in increasing
      order (`.filter((item) => item.score > 0)`). */
  function PositivePositions(scores: seq<real>, from: nat): (r: seq<nat>)
    requires from <= |scores|
    ensures forall k :: 0 <= k < |r| ==> from <= r[k] < |scores| && scores[r[k]] > 0.0
    ensures forall a, b :: 0 <= a < b < |r| ==> r[a] < r[b]
    ensures forall p :: from <= p < |scores| && scores[p] > 0.0 ==> p in r
    decreases |scores| - from
  {
    if from == |scores| then []
    else
      var rest := PositivePositions(scores, from + 1);
      if scores[from] > 0.0 then [from] + rest else rest
  }

  /** Position `i` goes before position `j` in the ranking: a higher score
      first, and among equal scores the earlier position first (the sort is
      stable). */
  predicate Precedes(scores: seq<real>, i: nat, j: nat)
    requires i < |scores| && j < |scores|
  {
    scores[i] > scores[j] || (scores[i] == scores[j] && i < j)
  }

  predicate InRange(scores: seq<real>, ps: seq<nat>) {
    forall k :: 0 <= k < |ps| ==> ps[k] < |scores|
  }

  /** Every earlier position of `ps` precedes every later one. */
  predicate Ranked(scores: seq<real>, ps: seq<nat>)
    requires InRange(scores, ps)
  {
    forall a, b :: 0 <= a < b < |ps| ==> Precedes(scores, ps[a], ps[b])
  }

  lemma RankedScoresDescend(scores: seq<real>, ps: seq<nat>)
    requires InRange(scores, ps) && Ranked(scores, ps)
    ensures forall a, b :: 0 <= a < b < |ps| ==> scores[ps[a]] >= scores[ps[b]]
  {
    forall a, b | 0 <= a < b < |ps| ensures scores[ps[a]] >= scores[ps[b]] {
      assert Precedes(scores, ps[a], ps[b]);
    }
  }

  /** Puts `p` in front of the first position it precedes. */
  function Insert(scores: seq<real>, p: nat, ps: seq<nat>): (r: seq<nat>)
    requires p < |scores| && InRange(scores, ps)
    ensures multiset(r) == multiset(ps) + multiset{p}
    ensures InRange(scores, r)
    decreases |ps|
  {
    if ps == [] || Precedes(scores, p, ps[0]) then
      [p] + ps
    else
      assert ps == [ps[0]] + ps[1..];
      [ps[0]] + Insert(scores, p, ps[1..])
  }

  lemma {:induction false} InsertRanked(scores: seq<real>, p: nat, ps: seq<nat>)
    requires p < |scores| && InRange(scores, ps)
    requires Ranked(scores, ps) && p !in ps
    ensures InRange(scores, Insert(scores, p, ps)) && Ranked(scores, Insert(scores, p, ps))
    decreases |ps|
  {
    var r := Insert(scores, p, ps);
    if ps != [] && !Precedes(scores, p, ps[0]) {
      var tail := Insert(scores, p, ps[1..]);
      InsertRanked(scores, p, ps[1..]);
      assert r == [ps[0]] + tail;
      HeadPrecedesInserted(scores, p, ps);
      ConsRanked(scores, ps[0], tail);
    }
  }

  /** The head of a ranked list precedes whatever is inserted after it. */
  lemma HeadPrecedesInserted(scores: seq<real>, p: nat, ps: seq<nat>)
    requires p < |scores| && InRange(scores, ps) && Ranked(scores, ps)
    requires ps != [] && p != ps[0] && !Precedes(scores, p, ps[0])
    ensures forall x :: x in Insert(scores, p, ps[1..]) ==> x < |scores| && Precedes(scores, ps[0], x)
  {
    var tail := Insert(scores, p, ps[1..]);
    forall x | x in tail ensures x < |scores| && Precedes(scores, ps[0], x) {
      assert x in multiset(ps[1..]) + multiset{p} by {
        assert x in multiset(tail);
      }
      if x != p {
        var m :| 0 <= m < |ps[1..]| && ps[1..][m] == x;
        assert ps[m + 1] == x;
      }
    }
  }

  lemma ConsRanked(scores: seq<real>, h: nat, t: seq<nat>)
    requires h < |scores| && InRange(scores, t) && Ranked(scores, t)
    requires forall x :: x in t ==> x < |scores| && Precedes(scores, h, x)
    ensures InRange(scores, [h] + t) && Ranked(scores, [h] + t)
  {
    var r := [h] + t;
    forall a, b | 0 <= a < b < |r| ensures Precedes(scores, r[a], r[b]) {
      assert r[b] == t[b - 1];
      if a > 0 {
        assert r[a] == t[a - 1];
      }
    }
  }

  /** `.sort((a, b) => b.score - a.score)` on the positions `ps`: the same
      positions, reordered. */
  function Rank(scores: seq<real>, ps: seq<nat>): (r: seq<nat>)
    requires InRange(scores, ps)
    ensures multiset(r) == multiset(ps)
    ensures InRange(scores, r)
    decreases |ps|
  {
    if ps == [] then []
    else
      assert ps == [ps[0]] + ps[1..];
      Insert(scores, ps[0], Rank(scores, ps[1..]))
  }

  /** Ranking distinct positions puts them in ranking order, which with the
      position as tie-break is the order of a stable sort. */
  lemma {:induction false} RankRanked(scores: seq<real>, ps: seq<nat>)
    requires InRange(scores, ps)
    requires forall a, b :: 0 <= a < b < |ps| ==> ps[a] != ps[b]
    ensures InRange(scores, Rank(scores, ps)) && Ranked(scores, Rank(scores, ps))
    decreases |ps|
  {
    if ps != [] {
      var rest := Rank(scores, ps[1..]);
      RankRanked(scores, ps[1..]);
      assert ps == [ps[0]] + ps[1..];
      assert ps[0] !in multiset(ps[1..]);
      assert ps[0] !in rest by {
        assert ps[0] !in multiset(rest);
      }
      InsertRanked(scores, ps[0], rest);
    }
  }

  /** `.slice(0, limit)`. */
  function Take<T>(s: seq<T>, limit: nat): (r: seq<T>)
    ensures |r| == if |s| < limit then |s| else limit
    ensures r == s[..|r|]
  {
    if |s| <= limit then s else s[..limit]
  }

  /** The default number of chunks an answer is built from. */
  const DefaultLimit: nat := 4

  /** The positions of the chosen chunks. */
  function TopPositions(scores: seq<real>, limit: nat): (r: seq<nat>)
    ensures InRange(scores, r)
    ensures |r| <= limit
  {
    Take(Rank(scores, PositivePositions(scores, 0)), limit)
  }

  /** The chosen positions have positive scores and come best first, equal
      scores in index order. */
  lemma TopPositionsRanked(scores: seq<real>, limit: nat)
    ensures Ranked(scores, TopPositions(scores, limit))
    ensures forall k :: 0 <= k < |TopPositions(scores, limit)| ==> scores[TopPositions(scores, limit)[k]] > 0.0
  {
    var positive := PositivePositions(scores, 0);
    RankRanked(scores, positive);
    var ranked := Rank(scores, positive);
    var top := TopPositions(scores, limit);
    assert top == ranked[..|top|];
    forall k | 0 <= k < |top| ensures scores[top[k]] > 0.0 {
      assert top[k] == ranked[k];
      assert ranked[k] in multiset(positive);
    }
  }

  lemma TopScores(scores: seq<real>, limit: nat)
    ensures forall a, b :: 0 <= a < b < |TopPositions(scores, limit)| ==>
      scores[TopPositions(scores, limit)[a]] >= scores[TopPositions(scores, limit)[b]]
    ensures forall k :: 0 <= k < |TopPositions(scores, limit)| ==> scores[TopPositions(scores, limit)[k]] > 0.0
  {
    TopPositionsRanked(scores, limit);
    RankedScoresDescend(scores, TopPositions(scores, limit));
  }

  /** No positive chunk is passed over for a worse one: a positive position
      left out of the top ones is preceded by every chosen one, and then the
      limit is reached. */
  lemma TopPositionsAreBest(scores: seq<real>, limit: nat, p: nat)
    requires p < |scores| && scores[p] > 0.0
    requires p !in TopPositions(scores, limit)
    ensures |TopPositions(scores, limit)| == limit
    ensures forall k :: 0 <= k < limit ==> Precedes(scores, TopPositions(scores, limit)[k], p)
  {
    var positive := PositivePositions(scores, 0);
    var ranked := Rank(scores, positive);
    RankRanked(scores, positive);
    assert p in multiset(positive);
    assert p in multiset(ranked);
    PrefixPrecedesRest(scores, ranked, limit, p);
  }

  /** In a ranked list, a position left out of the first `limit` is preceded
      by each of them, and there are `limit` of them. */
  lemma PrefixPrecedesRest(scores: seq<real>, ranked: seq<nat>, limit: nat, p: nat)
    requires InRange(scores, ranked) && Ranked(scores, ranked)
    requires p in ranked && p !in Take(ranked, limit)
    ensures |Take(ranked, limit)| == limit
    ensures forall k :: 0 <= k < limit ==> Precedes(scores, Take(ranked, limit)[k], p)
  {
    var top := Take(ranked, limit);
    var i :| 0 <= i < |ranked| && ranked[i] == p;
    assert forall j :: 0 <= j < |top| ==> top[j] == ranked[j];
    assert i >= |top|;
    forall k | 0 <= k < limit ensures Precedes(scores, top[k], p) {
      assert top[k] == ranked[k];
    }
  }

  /** Every positive position is chosen when there are at most `limit` of them. */
  lemma FewPositivesAllChosen(scores: seq<real>, limit: nat, p: nat)
    requires p < |scores| && scores[p] > 0.0
    requires |PositivePositions(scores, 0)| <= limit
    ensures p in TopPositions(scores, limit)
  {
    var positive := PositivePositions(scores, 0);
    var ranked := Rank(scores, positive);
    assert p in multiset(positive);
    assert |ranked| == |multiset(ranked)| == |positive|;
  }

  /** pickTopChunks: the chunks with a positive score, best first, equal
      scores in index order, at most `limit` of them. */
  function PickTopChunks(index: seq<Chunker.Chunk>, question: seq<string>, limit: nat): (r: seq<Hit>)
    ensures |r| <= limit
    ensures forall k :: 0 <= k < |r| ==>
      r[k].chunk in index && r[k].score == ScoreChunk(question, r[k].chunk.tokens) && r[k].score > 0.0
    ensures forall a, b :: 0 <= a < b < |r| ==> r[a].score >= r[b].score
  {
    var scores := Scores(index, question);
    var top := TopPositions(scores, limit);
    TopScores(scores, limit);
    seq(|top|, k requires 0 <= k < |top| => Hit(index[top[k]], scores[top[k]]))
  }

  /** A chunk with a positive score that is not picked scores no higher than
      any picked one, and the limit is reached. */
  lemma PickTopChunksAreBest(index: seq<Chunker.Chunk>, question: seq<string>, limit: nat, i: nat)
    requires i < |index| && ScoreChunk(question, index[i].tokens) > 0.0
    requires forall k :: 0 <= k < |PickTopChunks(index, question, limit)| ==> PickTopChunks(index, question, limit)[k].chunk != index[i]
    ensures |PickTopChunks(index, question, limit)| == limit
    ensures forall k :: 0 <= k < limit ==> PickTopChunks(index, question, limit)[k].score >= ScoreChunk(question, index[i].tokens)
  {
    var scores := Scores(index, question);
    var top := TopPositions(scores, limit);
    var r := PickTopChunks(index, question, limit);
    forall k | 0 <= k < |top| ensures top[k] != i {
      assert r[k].chunk == index[top[k]];
    }
    TopPositionsAreBest(scores, limit, i);
    forall k | 0 <= k < limit ensures r[k].score >= scores[i] {
      assert r[k].score == scores[top[k]];
      assert Precedes(scores, top[k], i);
    }
  }

  /** When no more than `limit` chunks score above zero, every one of them is picked. */
  lemma PickTopChunksTakesAllFew(index: seq<Chunker.Chunk>, question: seq<string>, limit: nat, i: nat)
    requires i < |index| && ScoreChunk(question, index[i].tokens) > 0.0
    requires |PositivePositions(Scores(index, question), 0)| <= limit
    ensures Hit(index[i], ScoreChunk(question, index[i].tokens)) in PickTopChunks(index, question, limit)
  {
    var scores := Scores(index, question);
    var top := TopPositions(scores, limit);
    var r := PickTopChunks(index, question, limit);
    FewPositivesAllChosen(scores, limit, i);
    var k :| 0 <= k < |top| && top[k] == i;
    assert r[k] == Hit(index[i], scores[i]);
  }

  /** Nothing is picked exactly when no chunk scores above zero (for a
      positive limit). */
  lemma PickTopChunksEmpty(index: seq<Chunker.Chunk>, question: seq<string>, limit: nat)
    requires limit > 0
    ensures PickTopChunks(index, question, limit) == []
        <==> forall i :: 0 <= i < |index| ==> ScoreChunk(question, index[i].tokens) == 0.0
  {
    var r := PickTopChunks(index, question, limit);
    if r != [] {
      var i :| 0 <= i < |index| && index[i] == r[0].chunk;
      assert ScoreChunk(question, index[i].tokens) > 0.0;
    } else {
      forall i | 0 <= i < |index| ensures ScoreChunk(question, index[i].tokens) == 0.0 {
        if ScoreChunk(question, index[i].tokens) > 0.0 {
          PickTopChunksAreBest(index, question, limit, i);
        }
      }
    }
  }

  /** A question without tokens, or an empty index, picks nothing. */
  lemma NothingToPick(index: seq<Chunker.Chunk>, question: seq<string>, limit: nat)
    requires question == [] || index == []
    ensures PickTopChunks(index, question, limit) == []
  {
    if limit > 0 {
      PickTopChunksEmpty(index, question, limit);
    }
  }

  /** The hits for a question as the page asks for them: tokenize the
      question and pick from the index with the default limit. */
  function Ask(index: seq<Chunker.Chunk>, question: string, cs: Normalizer.CharClasses): (r: seq<Hit>)
    ensures |r| <= DefaultLimit
    ensures forall k :: 0 <= k < |r| ==> r[k].chunk in index && r[k].score > 0.0
  {
    PickTopChunks(index, Normalizer.Tokenize(question, cs), DefaultLimit)
  }
}

=== FILE: seqs.dfy ===
/** Generic sequence operations shared by the three source files:
    order-preserving filtering, single-separator split/join, and
    JavaScript's `split(/x+/)` on runs of a separator. */
module Seqs {

  /** `a` is obtained from `b` by deleting elements, keeping the order. */
  predicate IsSubseq<T(==)>(a: seq<T>, b: seq<T>)
    decreases |b|
  {
    if a == [] then true
    else if b == [] then false
    else if a[0] == b[0] then IsSubseq(a[1..], b[1..])
    else IsSubseq(a, b[1..])
  }

  lemma {:induction false} IsSubseqRefl<T>(a: seq<T>)
    ensures IsSubseq(a, a)
    decreases |a|
  {
    if a != [] {
      IsSubseqRefl(a[1..]);
    }
  }

  /** JavaScript's `Array.prototype.map`. */
  function Map<T, U>(f: T -> U, s: seq<T>): (r: seq<U>)
    ensures |r| == |s|
    ensures forall i :: 0 <= i < |s| ==> r[i] == f(s[i])
  {
    seq(|s|, i requires 0 <= i < |s| => f(s[i]))
  }

  /** JavaScript's `Array.prototype.filter`: keeps the elements satisfying
      `p`, in their original order. */
  function Filter<T>(p: T -> bool, s: seq<T>): (r: seq<T>)
    ensures |r| <= |s|
    ensures forall i :: 0 <= i < |r| ==> p(r[i]) && r[i] in s
    ensures IsSubseq(r, s)
    decreases |s|
  {
    if s == [] then []
    else
      var rest := Filter(p, s[1..]);
      if p(s[0]) then [s[0]] + rest else rest
  }

  /** Filter keeps every element satisfying `p` with its multiplicity and
      drops every other one. */
  lemma {:induction false} FilterMultiset<T(!new)>(p: T -> bool, s: seq<T>)
    ensures forall x :: multiset(Filter(p, s))[x] == if p(x) then multiset(s)[x] else 0
    decreases |s|
  {
    if s != [] {
      FilterMultiset(p, s[1..]);
      assert s == [s[0]] + s[1..];
    }
  }

  lemma FilterMembership<T(!new)>(p: T -> bool, s: seq<T>, x: T)
    ensures x in Filter(p, s) <==> x in s && p(x)
  {
    FilterMultiset(p, s);
    var r := Filter(p, s);
    assert x in r <==> multiset(r)[x] > 0;
    assert x in s <==> multiset(s)[x] > 0;
  }

  /** Filtering with a predicate that holds everywhere keeps the sequence. */
  lemma {:induction false} FilterAll<T>(p: T -> bool, s: seq<T>)
    requires forall i :: 0 <= i < |s| ==> p(s[i])
    ensures Filter(p, s) == s
    decreases |s|
  {
    if s != [] {
      FilterAll(p, s[1..]);
    }
  }

  /** Position of the first `x` in `s`, or `|s|` when there is none. */
  function IndexOf<T(==)>(s: seq<T>, x: T): (i: nat)
    ensures i <= |s|
    ensures i < |s| ==> s[i] == x
    ensures forall j :: 0 <= j < i ==> s[j] != x
    ensures i == |s| <==> x !in s
    decreases |s|
  {
    if s == [] then 0
    else if s[0] == x then 0
    else 1 + IndexOf(s[1..], x)
  }

  lemma IndexOfAppend<T>(s: seq<T>, x: T, y: T)
    requires y in s
    ensures IndexOf(s + [x], y) == IndexOf(s, y)
  {
    var i := IndexOf(s, y);
    assert (s + [x])[i] == y;
  }

  /** `s.split(sep)` for a one-character separator. */
  function Split<T(==)>(s: seq<T>, sep: T): (r: seq<seq<T>>)
    ensures |r| >= 1
    ensures forall i :: 0 <= i < |r| ==> sep !in r[i] && |r[i]| <= |s|
    ensures forall i, j :: 0 <= i < |r| && 0 <= j < |r[i]| ==> r[i][j] in s
    decreases |s|
  {
    var i := IndexOf(s, sep);
    if i == |s| then [s]
    else [s[..i]] + Split(s[i + 1..], sep)
  }

  /** `ws.join(sep)` for a one-character separator. */
  function Join<T>(ws: seq<seq<T>>, sep: T): seq<T>
    decreases |ws|
  {
    if ws == [] then []
    else if |ws| == 1 then ws[0]
    else ws[0] + [sep] + Join(ws[1..], sep)
  }

  /** Splitting on a separator and joining back with it restores the input. */
  lemma {:induction false} JoinSplit<T>(s: seq<T>, sep: T)
    ensures Join(Split(s, sep), sep) == s
    decreases |s|
  {
    var i := IndexOf(s, sep);
    if i < |s| {
      var tail := Split(s[i + 1..], sep);
      var ws := [s[..i]] + tail;
      assert Split(s, sep) == ws;
      assert ws[0] == s[..i] && ws[1..] == tail && |ws| >= 2;
      assert Join(ws, sep) == s[..i] + [sep] + Join(tail, sep);
      JoinSplit(s[i + 1..], sep);
      assert s == s[..i] + [sep] + s[i + 1..];
    }
  }

  lemma SplitPrefix<T>(w: seq<T>, sep: T, t: seq<T>)
    requires sep !in w
    ensures Split(w + [sep] + t, sep) == [w] + Split(t, sep)
  {
    var s := w + [sep] + t;
    assert IndexOf(s, sep) == |w| by {
      assert s[|w|] == sep;
      forall j | 0 <= j < |w| ensures s[j] != sep {
        assert s[j] == w[j];
      }
    }
    assert s[..|w|] == w;
    assert s[|w| + 1..] == t;
  }

  /** Joining pieces free of the separator and splitting again restores the pieces. */
  lemma {:induction false} SplitJoin<T>(ws: seq<seq<T>>, sep: T)
    requires |ws| >= 1
    requires forall i :: 0 <= i < |ws| ==> sep !in ws[i]
    ensures Split(Join(ws, sep), sep) == ws
    decreases |ws|
  {
    if |ws| == 1 {
      assert IndexOf(ws[0], sep) == |ws[0]|;
    } else {
      SplitJoin(ws[1..], sep);
      SplitPrefix(ws[0], sep, Join(ws[1..], sep));
      assert ws == [ws[0]] + ws[1..];
    }
  }

  /** Drops the leading run of `sep`. */
  function DropRun<T(==)>(s: seq<T>, sep: T): (r: seq<T>)
    ensures |r| <= |s|
    ensures r == s[|s| - |r|..]
    ensures r == [] || r[0] != sep
    ensures forall j :: 0 <= j < |s| - |r| ==> s[j] == sep
    decreases |s|
  {
    if s != [] && s[0] == sep then DropRun(s[1..], sep) else s
  }

  /** `s.split(/sep+/)`: every run of separators counts as one. */
  function SplitRuns<T(==)>(s: seq<T>, sep: T): (r: seq<seq<T>>)
    ensures |r| >= 1
    ensures forall i :: 0 <= i < |r| ==> sep !in r[i] && |r[i]| <= |s|
    decreases |s|
  {
    var i := IndexOf(s, sep);
    if i == |s| then [s]
    else [s[..i]] + SplitRuns(DropRun(s[i + 1..], sep), sep)
  }

  /** An independent reading of `split(/sep+/)`: every run of separators
      replaced by a single one. */
  function SquashRuns<T(==)>(s: seq<T>, sep: T): seq<T>
    decreases |s|
  {
    if s == [] then []
    else if s[0] == sep then [sep] + SquashRuns(DropRun(s[1..], sep), sep)
    else [s[0]] + SquashRuns(s[1..], sep)
  }

  lemma {:induction false} SquashFreePrefix<T>(w: seq<T>, sep: T, t: seq<T>)
    requires sep !in w
    ensures SquashRuns(w + t, sep) == w + SquashRuns(t, sep)
    decreases |w|
  {
    if w != [] {
      assert w[0] != sep;
      assert (w + t)[0] == w[0];
      assert (w + t)[1..] == w[1..] + t;
      assert SquashRuns(w + t, sep) == [w[0]] + SquashRuns(w[1..] + t, sep);
      SquashFreePrefix(w[1..], sep, t);
      assert w == [w[0]] + w[1..];
    } else {
      assert w + t == t;
    }
  }

  lemma SquashSepHead<T>(t: seq<T>, sep: T)
    ensures SquashRuns([sep] + t, sep) == [sep] + SquashRuns(DropRun(t, sep), sep)
  {
    assert ([sep] + t)[1..] == t;
  }

  lemma SquashAtFirstSep<T>(s: seq<T>, sep: T, i: nat)
    requires i < |s| && s[i] == sep && sep !in s[..i]
    ensures SquashRuns(s, sep) == s[..i] + [sep] + SquashRuns(DropRun(s[i + 1..], sep), sep)
  {
    var w := s[..i];
    var tail := [sep] + s[i + 1..];
    assert s == w + tail;
    SquashFreePrefix(w, sep, tail);
    SquashSepHead(s[i + 1..], sep);
  }

  /** Splitting on runs is splitting on single separators once the runs are squashed. */
  lemma {:induction false} SplitRunsIsSplitOfSquashed<T>(s: seq<T>, sep: T)
    ensures SplitRuns(s, sep) == Split(SquashRuns(s, sep), sep)
    decreases |s|
  {
    var i := IndexOf(s, sep);
    if i == |s| {
      SquashFreePrefix(s, sep, []);
      assert s + [] == s;
    } else {
      var w := s[..i];
      var rest := DropRun(s[i + 1..], sep);
      assert SplitRuns(s, sep) == [w] + SplitRuns(rest, sep);
      SquashAtFirstSep(s, sep, i);
      SplitPrefix(w, sep, SquashRuns(rest, sep));
      SplitRunsIsSplitOfSquashed(rest, sep);
    }
  }

  /** Indexing into the middle part of a three-part sequence. */
  lemma IndexMiddle<T>(a: seq<T>, b: seq<T>, c: seq<T>, k: nat)
    requires k < |b|
    ensures |a| + k < |a + (b + c)|
    ensures (a + (b + c))[|a| + k] == b[k]
  {
  }
}

=== FILE: text.dfy ===
/** String primitives of the JavaScript runtime that the source relies on:
    the `\s` class, `String.prototype.trim`, `replace(/\s+/g, " ")`,
    `includes`, and decimal rendering of integers in template literals.
    Strings are sequences of characters; JavaScript counts UTF-16 code
    units, which only differs from this for characters outside the Basic
    Multilingual Plane. */
module Text {
  import opened Seqs

  /** The ECMAScript `WhiteSpace` and `LineTerminator` code points: the set
      matched by `\s` and removed by `trim()`. */
  predicate IsSpace(c: char) {
    || c == '\t' || c == '\n' || c == '\U{000B}' || c == '\U{000C}' || c == '\r'
    || c == ' ' || c == '\U{00A0}' || c == '\U{1680}'
    || ('\U{2000}' <= c <= '\U{200A}')
    || c == '\U{2028}' || c == '\U{2029}' || c == '\U{202F}' || c == '\U{205F}'
    || c == '\U{3000}' || c == '\U{FEFF}'
  }

  predicate AllSpace(s: string) {
    forall i :: 0 <= i < |s| ==> IsSpace(s[i])
  }

  /** No whitespace at either end. */
  predicate Trimmed(s: string) {
    s == [] || (!IsSpace(s[0]) && !IsSpace(s[|s| - 1]))
  }

  /** The only whitespace is the plain space, never two in a row. */
  predicate Collapsed(s: string) {
    && (forall i :: 0 <= i < |s| && IsSpace(s[i]) ==> s[i] == ' ')
    && (forall i :: 0 <= i < |s| - 1 ==> !(s[i] == ' ' && s[i + 1] == ' '))
  }

  function TrimStart(s: string): (r: string)
    ensures |r| <= |s| && r == s[|s| - |r|..]
    ensures AllSpace(s[..|s| - |r|])
    ensures r == [] || !IsSpace(r[0])
    decreases |s|
  {
    if s != [] && IsSpace(s[0]) then
      var r := TrimStart(s[1..]);
      var k := |s| - |r|;
      assert s[1..][|s| - 1 - |r|..] == s[k..];
      assert s[..k] == [s[0]] + s[1..][..k - 1];
      AllSpaceConcat([s[0]], s[1..][..k - 1]);
      r
    else s
  }

  function TrimEnd(s: string): (r: string)
    ensures |r| <= |s| && r == s[..|r|]
    ensures AllSpace(s[|r|..])
    ensures r == [] || !IsSpace(r[|r| - 1])
    decreases |s|
  {
    if s != [] && IsSpace(s[|s| - 1]) then
      var init := s[..|s| - 1];
      var r := TrimEnd(init);
      assert init[..|r|] == s[..|r|];
      assert s[|r|..] == init[|r|..] + [s[|s| - 1]];
      AllSpaceConcat(init[|r|..], [s[|s| - 1]]);
      r
    else s
  }

  /** `String.prototype.trim`. */
  function Trim(s: string): (r: string)
    ensures Trimmed(r)
    ensures |r| <= |s|
    ensures forall i :: 0 <= i < |r| ==> r[i] in s
    ensures r == [] <==> AllSpace(s)
  {
    var t := TrimStart(s);
    var r := TrimEnd(t);
    TrimParts(s, t, r);
    r
  }

  lemma TrimParts(s: string, t: string, r: string)
    requires t == TrimStart(s) && r == TrimEnd(t)
    ensures Trimmed(r)
    ensures forall i :: 0 <= i < |r| ==> r[i] in s
    ensures r == [] <==> AllSpace(s)
  {
    if r != [] {
      assert r[0] == t[0];
    }
    TrimPartsOffset(s, t, r);
    TrimPartsEmpty(s, t, r);
  }

  lemma TrimPartsOffset(s: string, t: string, r: string)
    requires t == TrimStart(s) && r == TrimEnd(t)
    ensures forall i :: 0 <= i < |r| ==> r[i] == s[|s| - |t| + i]
  {
  }

  lemma TrimPartsEmpty(s: string, t: string, r: string)
    requires t == TrimStart(s) && r == TrimEnd(t)
    ensures r == [] <==> AllSpace(s)
  {
    var k := |s| - |t|;
    if r == [] {
      assert AllSpace(t) by { assert t[|r|..] == t; }
      AllSpaceConcat(s[..k], t);
      assert s == s[..k] + t;
    } else {
      TrimPartsOffset(s, t, r);
      assert r[0] == s[k];
    }
  }

  lemma AllSpaceConcat(a: string, b: string)
    requires AllSpace(a) && AllSpace(b)
    ensures AllSpace(a + b)
  {
    forall i | 0 <= i < |a + b| ensures IsSpace((a + b)[i]) {
      if i < |a| { assert (a + b)[i] == a[i]; } else { assert (a + b)[i] == b[i - |a|]; }
    }
  }

  lemma TrimOfTrimmed(s: string)
    requires Trimmed(s)
    ensures Trim(s) == s
  {
  }

  /** Trimming keeps the collapsed shape: it only removes characters at the ends. */
  lemma TrimKeepsCollapsed(s: string)
    requires Collapsed(s)
    ensures Collapsed(Trim(s))
  {
    TrimPartsCollapsed(s, TrimStart(s), TrimEnd(TrimStart(s)));
  }

  lemma TrimPartsCollapsed(s: string, t: string, r: string)
    requires Collapsed(s)
    requires t == TrimStart(s) && r == TrimEnd(t)
    ensures Collapsed(r)
  {
    TrimPartsOffset(s, t, r);
    CollapsedWindow(s, r, |s| - |t|);
  }

  /** A run of consecutive characters of a collapsed string is collapsed. */
  lemma CollapsedWindow(s: string, r: string, k: nat)
    requires Collapsed(s) && k + |r| <= |s|
    requires forall i :: 0 <= i < |r| ==> r[i] == s[k + i]
    ensures Collapsed(r)
  {
    forall i | 0 <= i < |r| - 1 ensures !(r[i] == ' ' && r[i + 1] == ' ') {
      assert r[i] == s[k + i] && r[i + 1] == s[k + i + 1];
    }
  }

  /** `s.replace(/\s+/g, " ")`: every run of whitespace becomes one space. */
  function CollapseWhitespace(s: string): (r: string)
    ensures Collapsed(r)
    ensures |r| <= |s|
    ensures r != [] && r[0] == ' ' <==> s != [] && IsSpace(s[0])
    ensures forall i :: 0 <= i < |r| ==> r[i] == ' ' || (r[i] in s && !IsSpace(r[i]))
    decreases |s|
  {
    if s == [] then []
    else if IsSpace(s[0]) then
      var rest := TrimStart(s[1..]);
      var tail := CollapseWhitespace(rest);
      ConsCollapsed(' ', tail);
      ConsKeepsFrom(' ', tail, rest, s);
      [' '] + tail
    else
      var tail := CollapseWhitespace(s[1..]);
      ConsCollapsed(s[0], tail);
      ConsKeepsFrom(s[0], tail, s[1..], s);
      [s[0]] + tail
  }

  /** Collapsing empties only the empty string, and the result ends with a
      space exactly when the input ends with whitespace. */
  lemma {:induction false} CollapseEnds(s: string)
    ensures CollapseWhitespace(s) == [] <==> s == []
    ensures var r := CollapseWhitespace(s);
            r != [] && r[|r| - 1] == ' ' <==> s != [] && IsSpace(s[|s| - 1])
    decreases |s|
  {
    if s != [] {
      if IsSpace(s[0]) {
        var rest := TrimStart(s[1..]);
        CollapseSpaceHead(s, []);
        CollapseEnds(rest);
        SpaceHeadLast(s, rest);
      } else {
        CollapseVisibleHead(s, []);
        if |s| > 1 {
          CollapseEnds(s[1..]);
          assert s[1..][|s| - 2] == s[|s| - 1];
        } else {
          assert s[1..] == [];
        }
      }
    }
  }

  /** After a leading space the last character of the input is whitespace
      exactly when what follows the first run is empty or ends in whitespace. */
  lemma SpaceHeadLast(s: string, rest: string)
    requires s != [] && IsSpace(s[0]) && rest == TrimStart(s[1..])
    ensures IsSpace(s[|s| - 1]) <==> rest == [] || IsSpace(rest[|rest| - 1])
  {
    var t := s[1..];
    if rest == [] {
      if |s| > 1 {
        AllSpaceLast(t);
        assert s[|s| - 1] == t[|t| - 1];
      }
    } else {
      LastOfSuffix(t, rest);
      assert s[|s| - 1] == t[|t| - 1];
    }
  }

  lemma AllSpaceLast(t: string)
    requires t != [] && TrimStart(t) == []
    ensures IsSpace(t[|t| - 1])
  {
    var k := |t| - |TrimStart(t)|;
    assert k == |t|;
    SpacePrefixLast(t, k);
  }

  lemma SpacePrefixLast(t: string, k: nat)
    requires 0 < k <= |t| && AllSpace(t[..k])
    ensures IsSpace(t[k - 1])
  {
    assert t[..k][k - 1] == t[k - 1];
  }

  lemma LastOfSuffix(t: string, r: string)
    requires r != [] && |r| <= |t| && r == t[|t| - |r|..]
    ensures r[|r| - 1] == t[|t| - 1]
  {
  }

  lemma ConsCollapsed(c: char, t: string)
    requires Collapsed(t)
    requires IsSpace(c) ==> c == ' '
    requires c == ' ' ==> t == [] || t[0] != ' '
    ensures Collapsed([c] + t)
  {
    var r := [c] + t;
    forall i | 0 <= i < |r| - 1 ensures !(r[i] == ' ' && r[i + 1] == ' ') {
      if i > 0 {
        assert r[i] == t[i - 1] && r[i + 1] == t[i];
      }
    }
  }

  lemma ConsKeepsFrom(c: char, t: string, u: string, s: string)
    requires forall i :: 0 <= i < |t| ==> t[i] == ' ' || (t[i] in u && !IsSpace(t[i]))
    requires forall x :: x in u ==> x in s
    requires c == ' ' || (c in s && !IsSpace(c))
    ensures forall i :: 0 <= i < |[c] + t| ==> ([c] + t)[i] == ' ' || (([c] + t)[i] in s && !IsSpace(([c] + t)[i]))
  {
    forall i | 0 <= i < |[c] + t| ensures ([c] + t)[i] == ' ' || (([c] + t)[i] in s && !IsSpace(([c] + t)[i])) {
      if i > 0 {
        assert ([c] + t)[i] == t[i - 1];
      }
    }
  }

  /** Leading whitespace before a non-space start is dropped entirely. */
  lemma {:induction false} TrimStartSpacesThen(w: string, b: string)
    requires AllSpace(w)
    requires b == [] || !IsSpace(b[0])
    ensures TrimStart(w + b) == b
    decreases |w|
  {
    if w == [] {
      assert w + b == b;
    } else {
      assert (w + b)[0] == w[0];
      assert (w + b)[1..] == w[1..] + b;
      TrimStartSpacesThen(w[1..], b);
    }
  }

  /** Trimming the start of `a + b` stops inside `a` when `a` ends with a
      visible character. */
  lemma {:induction false} TrimStartAppend(a: string, b: string)
    requires a != [] && !IsSpace(a[|a| - 1])
    ensures TrimStart(a + b) == TrimStart(a) + b
    decreases |a|
  {
    assert (a + b)[0] == a[0];
    if IsSpace(a[0]) {
      assert (a + b)[1..] == a[1..] + b;
      TrimStartAppend(a[1..], b);
    }
  }

  /** Trimming the end of `a + b` stops inside `b` when `b` starts with a
      visible character. */
  lemma {:induction false} TrimEndAppend(a: string, b: string)
    requires b != [] && !IsSpace(b[0])
    ensures TrimEnd(a + b) == a + TrimEnd(b)
    decreases |b|
  {
    var ab := a + b;
    assert ab[|ab| - 1] == b[|b| - 1];
    if IsSpace(b[|b| - 1]) {
      var init := b[..|b| - 1];
      assert ab[..|ab| - 1] == a + init;
      TrimEndAppend(a, init);
    }
  }

  /** Collapsing distributes over a cut right after a visible character. */
  lemma {:induction false} CollapseAppend(a: string, b: string)
    requires a == [] || !IsSpace(a[|a| - 1])
    ensures CollapseWhitespace(a + b) == CollapseWhitespace(a) + CollapseWhitespace(b)
    decreases |a|
  {
    if a == [] {
      assert a + b == b;
    } else if IsSpace(a[0]) {
      var rest := TrimStart(a[1..]);
      TrimStartKeepsLast(a[1..]);
      TrimStartAppend(a[1..], b);
      CollapseAppend(rest, b);
      CollapseAppendSpace(a, b, rest);
    } else {
      if |a| > 1 {
        CollapseAppend(a[1..], b);
      }
      CollapseAppendVisible(a, b);
    }
  }

  lemma TrimStartKeepsLast(s: string)
    requires s != [] && !IsSpace(s[|s| - 1])
    ensures TrimStart(s) != [] && TrimStart(s)[|TrimStart(s)| - 1] == s[|s| - 1]
  {
    var r := TrimStart(s);
    var k := |s| - |r|;
    assert k < |s|;
    assert r[|r| - 1] == s[k..][|r| - 1];
  }

  lemma CollapseAppendSpace(a: string, b: string, rest: string)
    requires a != [] && IsSpace(a[0])
    requires rest == TrimStart(a[1..]) && TrimStart(a[1..] + b) == rest + b
    requires CollapseWhitespace(rest + b) == CollapseWhitespace(rest) + CollapseWhitespace(b)
    ensures CollapseWhitespace(a + b) == CollapseWhitespace(a) + CollapseWhitespace(b)
  {
    CollapseSpaceHead(a, b);
    ConcatThree([' '], CollapseWhitespace(rest), CollapseWhitespace(b));
  }

  lemma CollapseAppendVisible(a: string, b: string)
    requires a != [] && !IsSpace(a[0])
    requires a[1..] != [] ==> CollapseWhitespace(a[1..] + b) == CollapseWhitespace(a[1..]) + CollapseWhitespace(b)
    ensures CollapseWhitespace(a + b) == CollapseWhitespace(a) + CollapseWhitespace(b)
  {
    CollapseVisibleHead(a, b);
    if a[1..] == [] {
      assert a[1..] + b == b;
      assert CollapseWhitespace(a[1..]) == [];
    }
    ConcatThree([a[0]], CollapseWhitespace(a[1..]), CollapseWhitespace(b));
  }

  lemma ConcatThree(x: string, y: string, z: string)
    ensures x + (y + z) == x + y + z
  {
  }

  /** One step of collapsing `a + b` when `a` starts with whitespace. */
  lemma CollapseSpaceHead(a: string, b: string)
    requires a != [] && IsSpace(a[0])
    ensures CollapseWhitespace(a + b) == [' '] + CollapseWhitespace(TrimStart(a[1..] + b))
    ensures CollapseWhitespace(a) == [' '] + CollapseWhitespace(TrimStart(a[1..]))
  {
    assert (a + b)[0] == a[0];
    assert (a + b)[1..] == a[1..] + b;
  }

  /** One step of collapsing `a + b` when `a` starts with a visible character. */
  lemma CollapseVisibleHead(a: string, b: string)
    requires a != [] && !IsSpace(a[0])
    ensures CollapseWhitespace(a + b) == [a[0]] + CollapseWhitespace(a[1..] + b)
    ensures CollapseWhitespace(a) == [a[0]] + CollapseWhitespace(a[1..])
  {
    assert (a + b)[0] == a[0];
    assert (a + b)[1..] == a[1..] + b;
  }

  /** A run of whitespace before a visible character becomes one space. */
  lemma CollapseRun(w: string, b: string)
    requires w != [] && AllSpace(w)
    requires b == [] || !IsSpace(b[0])
    ensures CollapseWhitespace(w + b) == " " + CollapseWhitespace(b)
  {
    assert (w + b)[0] == w[0];
    assert (w + b)[1..] == w[1..] + b;
    TrimStartSpacesThen(w[1..], b);
  }

  /** Every run of whitespace between two visible characters becomes
      exactly one plain space, so words are never glued together. */
  lemma CollapseBetween(a: string, w: string, b: string)
    requires a == [] || !IsSpace(a[|a| - 1])
    requires w != [] && AllSpace(w)
    requires b == [] || !IsSpace(b[0])
    ensures CollapseWhitespace(a + w + b) == CollapseWhitespace(a) + " " + CollapseWhitespace(b)
  {
    ConcatThree(a, w, b);
    CollapseAppend(a, w + b);
    CollapseRun(w, b);
    ConcatThree(CollapseWhitespace(a), " ", CollapseWhitespace(b));
  }

  /** The characters that are not whitespace, in order. */
  function Visible(s: string): string
    decreases |s|
  {
    if s == [] then []
    else (if IsSpace(s[0]) then [] else [s[0]]) + Visible(s[1..])
  }

  lemma {:induction false} VisibleOfConcat(a: string, b: string)
    ensures Visible(a + b) == Visible(a) + Visible(b)
    decreases |a|
  {
    if a == [] {
      assert a + b == b;
    } else {
      assert (a + b)[0] == a[0];
      assert (a + b)[1..] == a[1..] + b;
      VisibleOfConcat(a[1..], b);
    }
  }

  lemma {:induction false} VisibleOfSpaces(s: string)
    requires AllSpace(s)
    ensures Visible(s) == []
    decreases |s|
  {
    if s != [] {
      VisibleOfSpaces(s[1..]);
    }
  }

  /** Collapsing whitespace never adds, drops or reorders a visible character. */
  lemma {:induction false} CollapseKeepsVisible(s: string)
    ensures Visible(CollapseWhitespace(s)) == Visible(s)
    decreases |s|
  {
    if s != [] {
      if IsSpace(s[0]) {
        var rest := TrimStart(s[1..]);
        var k := |s[1..]| - |rest|;
        assert s[1..] == s[1..][..k] + rest;
        VisibleOfSpaces(s[1..][..k]);
        VisibleOfConcat(s[1..][..k], rest);
        CollapseKeepsVisible(rest);
        assert Visible([' '] + CollapseWhitespace(rest)) == Visible(CollapseWhitespace(rest)) by {
          VisibleOfConcat([' '], CollapseWhitespace(rest));
        }
      } else {
        CollapseKeepsVisible(s[1..]);
      }
    }
  }

  /** A string that is already collapsed is left alone. */
  lemma {:induction false} CollapseOfCollapsed(s: string)
    requires Collapsed(s)
    ensures CollapseWhitespace(s) == s
    decreases |s|
  {
    if s != [] {
      CollapsedTail(s);
      CollapseOfCollapsed(s[1..]);
      if IsSpace(s[0]) {
        CollapseFixSpace(s);
      } else {
        CollapseFixVisible(s);
      }
    }
  }

  lemma CollapseFixSpace(s: string)
    requires s != [] && s[0] == ' ' && (s[1..] == [] || !IsSpace(s[1..][0]))
    requires CollapseWhitespace(s[1..]) == s[1..]
    ensures CollapseWhitespace(s) == s
  {
    var t := s[1..];
    assert TrimStart(t) == t;
    assert s == [' '] + t;
  }

  lemma CollapseFixVisible(s: string)
    requires s != [] && !IsSpace(s[0])
    requires CollapseWhitespace(s[1..]) == s[1..]
    ensures CollapseWhitespace(s) == s
  {
    assert s == [s[0]] + s[1..];
  }

  lemma CollapsedTail(s: string)
    requires Collapsed(s) && s != []
    ensures Collapsed(s[1..])
    ensures IsSpace(s[0]) ==> s[0] == ' ' && (s[1..] == [] || !IsSpace(s[1..][0]))
  {
    if IsSpace(s[0]) && |s| > 1 {
      assert !(s[0] == ' ' && s[1] == ' ');
    }
  }

  /** The text-cleaning step of `summarizeText`: collapse, then trim. */
  function Clean(s: string): (r: string)
    ensures Collapsed(r) && Trimmed(r)
    ensures |r| <= |s|
    ensures Visible(r) == Visible(s)
  {
    var c := CollapseWhitespace(s);
    TrimKeepsCollapsed(c);
    CollapseKeepsVisible(s);
    TrimKeepsVisible(c);
    Trim(c)
  }

  lemma TrimKeepsVisible(s: string)
    ensures Visible(Trim(s)) == Visible(s)
  {
    var t := TrimStart(s);
    TrimStartKeepsVisible(s);
    TrimEndKeepsVisible(t);
  }

  lemma TrimStartKeepsVisible(s: string)
    ensures Visible(TrimStart(s)) == Visible(s)
  {
    var t := TrimStart(s);
    var pre := s[..|s| - |t|];
    assert s == pre + t;
    VisibleOfConcat(pre, t);
    VisibleOfSpaces(pre);
  }

  lemma TrimEndKeepsVisible(t: string)
    ensures Visible(TrimEnd(t)) == Visible(t)
  {
    var r := TrimEnd(t);
    var post := t[|r|..];
    assert t == r + post;
    VisibleOfConcat(r, post);
    VisibleOfSpaces(post);
  }

  /** Between two visible characters, any run of whitespace cleans to one
      space: the words on either side stay apart and are not glued. */
  lemma CleanBetween(a: string, w: string, b: string)
    requires a != [] && !IsSpace(a[|a| - 1])
    requires w != [] && AllSpace(w)
    requires b != [] && !IsSpace(b[0])
    ensures Clean(a + w + b) == Clean(a) + " " + Clean(b)
  {
    var ca := CollapseWhitespace(a);
    var cb := CollapseWhitespace(b);
    CollapseBetween(a, w, b);
    CollapseEnds(a);
    CollapseEnds(b);
    assert ca[|ca| - 1] != ' ';
    assert cb[0] != ' ';
    TrimAroundSpace(ca, cb);
  }

  /** Trimming leaves a space between two visible characters alone. */
  lemma TrimAroundSpace(x: string, y: string)
    requires x != [] && !IsSpace(x[|x| - 1])
    requires y != [] && !IsSpace(y[0])
    ensures Trim(x + " " + y) == Trim(x) + " " + Trim(y)
  {
    var tx := TrimStart(x);
    TrimStartAroundSpace(x, y);
    TrimEndAroundSpace(tx, y);
    TrimIsBothEnds(x + " " + y);
    TrimIsBothEnds(x);
    TrimIsBothEnds(y);
  }

  lemma TrimIsBothEnds(s: string)
    ensures Trim(s) == TrimEnd(TrimStart(s))
  {
  }

  lemma TrimStartAroundSpace(x: string, y: string)
    requires x != [] && !IsSpace(x[|x| - 1])
    ensures TrimStart(x + " " + y) == TrimStart(x) + " " + y
    ensures TrimStart(x) != [] && !IsSpace(TrimStart(x)[|TrimStart(x)| - 1])
    ensures TrimEnd(TrimStart(x)) == TrimStart(x)
  {
    assert x + " " + y == x + (" " + y);
    TrimStartAppend(x, " " + y);
    var tx := TrimStart(x);
    assert tx[|tx| - 1] == x[|x| - 1];
    ConcatThree(tx, " ", y);
  }

  lemma TrimEndAroundSpace(t: string, y: string)
    requires y != [] && !IsSpace(y[0])
    ensures TrimEnd(t + " " + y) == t + " " + TrimEnd(y)
    ensures TrimStart(y) == y
  {
    TrimEndAppend(t + " ", y);
  }

  /** A collapsed, trimmed string is already clean. */
  lemma CleanOfClean(s: string)
    requires Collapsed(s) && Trimmed(s)
    ensures Clean(s) == s
  {
    CollapseOfCollapsed(s);
    TrimOfTrimmed(s);
  }

  /** Cleaning is idempotent. */
  lemma CleanIdempotent(s: string)
    ensures Clean(Clean(s)) == Clean(s)
  {
    var c := Clean(s);
    CollapseOfCollapsed(c);
    TrimOfTrimmed(c);
  }

  /** `s.includes(w)`. */
  predicate Contains(s: string, w: string)
    decreases |s|
  {
    w <= s || (s != [] && Contains(s[1..], w))
  }

  function Digit(d: nat): (c: char)
    requires d < 10
    ensures '0' <= c <= '9'
  {
    ['0', '1', '2', '3', '4', '5', '6', '7', '8', '9'][d]
  }

  /** Decimal rendering of a non-negative integer, as in `${n}`. */
  function NatToString(n: nat): (r: string)
    ensures r != []
    ensures forall i :: 0 <= i < |r| ==> '0' <= r[i] <= '9'
    ensures |r| > 1 ==> r[0] != '0'
    decreases n
  {
    if n < 10 then [Digit(n)] else NatToString(n / 10) + [Digit(n % 10)]
  }

  /** Reads a string of decimal digits back into its value. */
  function ParseDecimal(s: string): nat
    requires forall i :: 0 <= i < |s| ==> '0' <= s[i] <= '9'
    decreases |s|
  {
    if s == [] then 0
    else 10 * ParseDecimal(s[..|s| - 1]) + ((s[|s| - 1] as int) - ('0' as int))
  }

  /** The decimal rendering is faithful: reading it back gives the number. */
  lemma {:induction false} NatToStringRoundTrip(n: nat)
    ensures ParseDecimal(NatToString(n)) == n
    decreases n
  {
    if n >= 10 {
      NatToStringRoundTrip(n / 10);
      var r := NatToString(n);
      assert r[..|r| - 1] == NatToString(n / 10);
    }
  }

  /** Different numbers render differently. */
  lemma NatToStringInjective(m: nat, n: nat)
    requires NatToString(m) == NatToString(n)
    ensures m == n
  {
    NatToStringRoundTrip(m);
    NatToStringRoundTrip(n);
  }
}

=== FILE: wrappers.dfy ===
/** Optional values: the model's stand-in for JavaScript's `null`/`undefined`. */
module Wrappers {

  datatype Option<+T> = None | Some(value: T) {

    /** The value, or `default` when there is none (JavaScript's `x || default` on a present value). */
    function GetOr(default: T): T {
      match this
      case Some(v) => v
      case None => default
    }
  }
}
